=== FILE: README.md ===
# PropTech client and matching core, modelled in Dafny

This project models the sequential logic of the PropTech platform. On the
front end that is:

- the session store (`authReducer` and its drivers);
- the route guards;
- the HTTP client's token interceptors;
- the locale store;
- the pagination bar, the image gallery and the public navigation;
- the display formatters.

On the back end it is the input validators and the investor/property
matching rules. Every component is a pure function over immutable data.
Each comes with lemmas that relate it to an invariant, an inverse or an
independent reference definition.

Files and modules:

- `base.dfy` (`Base`) holds the optional values and the browser's `localStorage`.
- `chars.dfy` (`Chars`) holds the ASCII character classes, case mapping, digit filtering, `strip` and first/last index search.
- `auth.dfy` (`Auth`) holds:
  - a JavaScript value/object model;
  - the `Session` record and the reducer;
  - `initializeAuth`, `login`/`register`, `logout` and `updateUser` over an explicit client (session plus storage);
  - the facts the login and register pages rely on.
- `guards.dfy` (`Guards`) holds the six route guards as decision functions, `Session × requirement × path → Placeholder | Redirect(target, from?) | Render`, and the ordered check list of `ProtectedRoute`.
- `api.dfy` (`ApiClient`) holds the request and response interceptors over storage plus the current pathname.
- `locale.dfy` (`Locale`) holds the language provider's initialisation and `changeLanguage`.
- `pagination.dfy` (`Pagination`) holds `getVisiblePages`, the rendered button bar, the click guard and the item range.
- `gallery.dfy` (`Gallery`) holds the slide and modal index navigation, autoplay and the key handler.
- `nav.dfy` (`PublicNav`) holds the "current page" predicate over the navigation list.
- `formatters.dfy` (`Formatters`) holds `formatPhoneNumber`, `formatAddress`, `getStatusConfig` and the `formatRelativeTime` buckets.
- `validators.dfy` (`Validators`) holds every validator and `sanitize_string`. Each regular expression is a hand-written recogniser over ASCII, proved equal to a declarative description of its language.
- `matching.dfy` (`Matching`) holds the BMV and match scores over exact reals, the ranking, the recommendation filter and the deal-interest upsert.

In a few places the code behaves differently from what its names or
callers suggest. The model follows the code:

- A failed start-up fetch records the error's message in the session (`AuthContext.jsx:70-74`).
- `UPDATE_USER` on a signed-out session spreads the patch into a null user. The result is a session with a user but no authentication, so the update is not a no-op.
- `changeLanguage` accepts any code. There is no supported-language check.
- A 401 clears `access_token` and `refresh_token`, while the session store persists `token`. So a 401 leaves the session's token in place, and the interceptor never attaches it.
- `isAuthenticated` implies a user and a token only while every AUTH_SUCCESS payload holds both. `login` and `register` destructure `{ user, token }` from whatever body the service returns, and dispatch AUTH_SUCCESS regardless. The back end's login body has `access_token` but no `token`, and its register body has neither (`backend/app/api/auth.py:69-72`, `:116-124`). So as written, a login authenticates with no token and persists the text "undefined". The converse also fails: a session can hold a user and a token without being authenticated.
- The recommendation loop appends before it tests the limit. So, given any unseen match, the loop admits one even at a limit of zero or less. The `limit * 2` fetch that feeds it is left out, and at a limit of zero it returns no rows (`backend/app/services/matching_service.py:80`, `:148`).

## Model

| member | source | states |
|---|---|---|
| Base.GetItem | frontend/src/contexts/AuthContext.jsx:63 | `getItem` yields a value exactly when the key is stored, and then the stored value |
| Chars.Digits | frontend/src/utils/formatters.js:102 | digit filtering keeps only digits, never lengthens, and leaves an all-digit string alone |
| Chars.DigitsSingle | frontend/src/utils/formatters.js:102 | a single character survives digit filtering exactly when it is a digit |
| Chars.DigitsKeepsDigits | frontend/src/utils/formatters.js:102 | digit filtering keeps every digit as often as it occurs in the input |
| Chars.DigitsAppend | frontend/src/utils/formatters.js:102 | filtering digits distributes over concatenation |
| Chars.Strip | backend/app/utils/validators.py:67 | `strip()` removes the surrounding whitespace and nothing else: the result has no whitespace at either end, and only whitespace lies before and after it in the input |
| Chars.StripUnique | backend/app/utils/validators.py:67 | any unpadded infix of a string with only whitespace around it is that string's strip, so the contract of `strip()` determines it |
| Chars.FirstIndex | frontend/src/utils/formatters.js:128 | the found position holds the character and no earlier one does |
| Chars.LastIndex | backend/app/utils/validators.py:74 | the found position holds the character and no later one does (where `rsplit(c, 1)` cuts) |
| Auth.InitialSession | frontend/src/contexts/AuthContext.jsx:7-13 | start-up is loading, unauthenticated, with no user and no error, and the token is the stored `token` |
| Auth.Spread | frontend/src/contexts/AuthContext.jsx:46-50 | an object spread has the union of keys; the patch wins; a null base yields the patch itself |
| Auth.Reduce | frontend/src/contexts/AuthContext.jsx:15-54 | AUTH_START sets loading, clears error, keeps identity; SUCCESS, FAILURE and LOGOUT end loading; FAILURE clears identity and stores the payload as error; LOGOUT gives the signed-out session from any state; UPDATE_USER merges into the user only; unknown actions change nothing |
| Auth.ReducePreservesCoherent | frontend/src/contexts/AuthContext.jsx:15-54 | from a coherent session an action keeps "authenticated implies user and token, and no error; loading implies no error" exactly when it is not an AUTH_SUCCESS lacking a user or a token |
| Auth.ReachableCoherent | frontend/src/contexts/AuthContext.jsx:7-54 | every session reachable from start-up by dispatches whose AUTH_SUCCESS payloads hold a user and a token is coherent |
| Auth.IncompleteSuccessBreaksCoherence | frontend/src/contexts/AuthContext.jsx:19-27 | one AUTH_SUCCESS without a token, after start-up, leaves an authenticated session with no token |
| Auth.CoherentAfter | frontend/src/contexts/AuthContext.jsx:15-54 | coherence survives any sequence of dispatches whose AUTH_SUCCESS payloads hold a user and a token |
| Auth.UserAndTokenWithoutAuthentication | frontend/src/contexts/AuthContext.jsx:7-13 | the converse fails: a reachable session has user and token but is not authenticated |
| Auth.UpdateUserWhenSignedOut | frontend/src/contexts/AuthContext.jsx:46-50 | updating a signed-out session installs the patch as the user, so the update is not a no-op |
| Auth.InitializeAuth | frontend/src/contexts/AuthContext.jsx:60-80 | without a stored token the session settles signed out; with one, a successful fetch authenticates with that token, and a failed fetch removes `token` and records the error message |
| Auth.InitializeWithoutTokenIdempotent | frontend/src/contexts/AuthContext.jsx:60-80 | without a token, start-up lands on the signed-out session and repeating it changes nothing |
| Auth.Authenticate | frontend/src/contexts/AuthContext.jsx:85-121 | `login`/`register` report `success` exactly when the service call succeeds and carry `error` exactly on failure; success persists the body's `token` as text (`"undefined"` when missing), authenticates, and installs the body's `user` and `token` whether present or not; failure leaves storage alone and yields the failure state; the result never has `user` or `requiresVerification` |
| Auth.AuthenticateCoherent | frontend/src/contexts/AuthContext.jsx:85-121 | a successful call keeps a coherent session coherent exactly when the body holds an object `user` and a string `token` |
| Auth.BackendLoginBodyHasNoToken | frontend/src/contexts/AuthContext.jsx:85-102 | the back end's login body (`access_token`, `refresh_token`, `user`) persists the text "undefined" and authenticates with the user but no token |
| Auth.BackendRegisterBodyHasNoIdentity | frontend/src/contexts/AuthContext.jsx:104-121 | the back end's register body (`message`, `user_id`) authenticates with neither user nor token |
| Auth.SignOut | frontend/src/contexts/AuthContext.jsx:123-126 | logout removes only `token` from storage and yields the signed-out session |
| Auth.UpdateProfile | frontend/src/contexts/AuthContext.jsx:128-130 | a profile update touches only the session's user: every patched key holds the patched value, every other key of the old user keeps its value, and no other key appears |
| Auth.LoginNeverReachesAdminDashboard | frontend/src/pages/auth/LoginPage.jsx:51 | because the login result has no `user`, the login page always falls back to the portal dashboard |
| Auth.RegisterNeverRequiresVerification | frontend/src/pages/auth/RegisterPage.jsx:80 | the register result never carries `requiresVerification`, so that branch is dead |
| Guards.PlanLevel | frontend/src/components/common/PrivateRoute.jsx:152-157 | plan levels are 1 to 4 for the four plans and 0 for anything else |
| Guards.PlanOrdering | frontend/src/components/common/PrivateRoute.jsx:152-166 | basic < premium < professional < enterprise; a user without a known plan is always too low; an unknown required plan counts as basic |
| Guards.PrivateRoute | frontend/src/components/common/PrivateRoute.jsx:7-43 | loading gives the placeholder; unauthenticated users go to the redirect target with `from`; a non-admin on an admin route goes to the dashboard; renders exactly when authenticated and (admin-only ⇒ admin) |
| Guards.RoleBasedRoute | frontend/src/components/common/PrivateRoute.jsx:55-86 | an empty role list imposes nothing; otherwise a role outside the list goes to the fallback; renders exactly when authenticated and the role passes |
| Guards.FeatureRoute | frontend/src/components/common/PrivateRoute.jsx:89-123 | renders exactly when authenticated and the user has the feature or is admin; a list of features has the feature as an element, a string of features as a substring |
| Guards.FeatureStringMatchesSubstrings | frontend/src/components/common/PrivateRoute.jsx:116 | a `features` string `premium_reports` grants `reports`, a substring of it, but not the longer `premium_reports_pro` |
| Guards.SubscriptionRoute | frontend/src/components/common/PrivateRoute.jsx:126-167 | an authenticated user goes to the upgrade fallback exactly when their plan level is below the required level |
| Guards.VerifiedRoute | frontend/src/components/common/PrivateRoute.jsx:170-200 | renders exactly when authenticated and verified; unverified users go to the redirect target |
| Guards.ProtectedRoute | frontend/src/components/common/PrivateRoute.jsx:203-232 | loading gives the placeholder; with `requireAuth` an unauthenticated session goes to login with `from`; only the login redirect carries `from` |
| Guards.FirstFailing | frontend/src/components/common/PrivateRoute.jsx:235-274 | the first failing check of a list: none exactly when all pass, otherwise a failing check all of whose predecessors pass |
| Guards.FirstFailingInOrder | frontend/src/components/common/PrivateRoute.jsx:235-274 | the checks run verification, admin, roles, features, plan, in that order |
| Guards.ProtectedRouteIsChecklist | frontend/src/components/common/PrivateRoute.jsx:215-276 | the guard equals "placeholder, then login, then the first failing check's redirect, else render" |
| Guards.ProtectedRouteRendersIff | frontend/src/components/common/PrivateRoute.jsx:276 | children render exactly when not loading, authenticated if required, and every check passes |
| Guards.UnauthenticatedGoesToLogin | frontend/src/components/common/PrivateRoute.jsx:224-232 | an unauthenticated session with `requireAuth` goes to login with `from = path`, never to the dashboard or the upgrade page |
| Guards.NoAuthNullUserStillChecked | frontend/src/components/common/PrivateRoute.jsx:235-247 | without `requireAuth`, a null user still meets the verification, admin and role checks and is redirected by them |
| Guards.PrivateRouteIsProtectedRoute | frontend/src/components/common/PrivateRoute.jsx:7-43 | `PrivateRoute` is `ProtectedRoute` with only the admin requirement |
| Guards.RoleBasedRouteIsProtectedRoute | frontend/src/components/common/PrivateRoute.jsx:55-86 | `RoleBasedRoute` is `ProtectedRoute` with only the role list |
| Guards.FeatureRouteIsProtectedRoute | frontend/src/components/common/PrivateRoute.jsx:89-123 | `FeatureRoute` is `ProtectedRoute` with one required feature |
| Guards.SubscriptionRouteIsProtectedRoute | frontend/src/components/common/PrivateRoute.jsx:126-167 | `SubscriptionRoute` is `ProtectedRoute` with a required plan |
| Guards.VerifiedRouteIsProtectedRoute | frontend/src/components/common/PrivateRoute.jsx:170-200 | `VerifiedRoute` is `ProtectedRoute` with only the verification requirement |
| Guards.UnverifiedInvestorAfterStartup | frontend/src/contexts/AuthContext.jsx:60-80 | an unverified investor fetched at start-up is sent to the verify-email page by `VerifiedRoute` |
| Guards.BasicUserNeedsUpgrade | frontend/src/components/common/PrivateRoute.jsx:260-274 | a basic-plan non-admin on a premium route is sent to the upgrade page by both plan guards |
| ApiClient.OnRequest | frontend/src/services/api.js:15-26 | the `Authorization` header is added exactly when `access_token` is truthy, as `Bearer <token>`; other headers are untouched; without a token the headers pass through unchanged |
| ApiClient.OnResponseError | frontend/src/services/api.js:29-45 | a 401 removes `access_token` and `refresh_token` and navigates to login; the location changes exactly on a 401 away from the login page; other errors change nothing; the error is re-rejected unchanged |
| ApiClient.UnauthorizedIdempotent | frontend/src/services/api.js:34-42 | handling a 401 twice leaves the same storage and location as handling it once |
| ApiClient.UnauthorizedKeepsSessionToken | frontend/src/services/api.js:34-37 | a 401 leaves the session store's `token` key in place |
| ApiClient.LoginTokenNotAttached | frontend/src/services/api.js:17-20 | a token persisted under `token` alone is never attached to requests |
| Locale.Initialize | frontend/src/contexts/LanguageContext.jsx:36-41 | start-up uses the stored language, or `en` when absent, with `isRTL` exactly for `ar`; the effect itself writes no storage (i18next's own cache is left out) |
| Locale.ChangeLanguage | frontend/src/contexts/LanguageContext.jsx:43-52 | the new code becomes current and persisted; `isRTL` and `dir = rtl` hold exactly for `ar`; `lang` is the code; no other modelled storage key changes (i18next's own cache is left out) |
| Locale.ChangeLanguageIdempotent | frontend/src/contexts/LanguageContext.jsx:43-52 | changing to the same language twice equals changing once |
| Locale.ChangeThenReload | frontend/src/contexts/LanguageContext.jsx:36-52 | after a change, a reload restores the same locale from storage |
| Locale.UnsupportedCodeAccepted | frontend/src/contexts/LanguageContext.jsx:43-45 | any code, such as `fr`, is accepted verbatim as a left-to-right language |
| Pagination.Range | frontend/src/components/common/Pagination.jsx:44-46 | the page range from `lo` to `hi` holds exactly the consecutive integers |
| Pagination.VisiblePages | frontend/src/components/common/Pagination.jsx:28-50 | the window is consecutive and ascending within `[1, total]`, contains the current page, has at most `2*floor(m/2)+1` pages (at most `m` when odd), is full when `m ≤ total`, and is all pages when `total < m` |
| Pagination.EvenMaximumShowsOneMore | frontend/src/components/common/Pagination.jsx:30-47 | with an even maximum, a window clear of both ends is the current page plus and minus half the maximum, one page more than the maximum; at either end it has exactly the maximum |
| Pagination.NumberButtons | frontend/src/components/common/Pagination.jsx:136-145 | one button per visible page, active exactly on the current page |
| Pagination.EdgeButtonsMatchHiddenPages | frontend/src/components/common/Pagination.jsx:126-158 | the page-1 button shows exactly when page 1 is hidden, with an ellipsis exactly when page 2 is too; the last-page button and its ellipsis mirror this |
| Pagination.Render | frontend/src/components/common/Pagination.jsx:25 | nothing renders exactly when there is at most one page |
| Pagination.Click | frontend/src/components/common/Pagination.jsx:62 | a button reports a page exactly when it is neither disabled nor active |
| Pagination.PrevNextDisabled | frontend/src/components/common/Pagination.jsx:110-120 | previous is disabled exactly on page 1 and next exactly on the last page |
| Pagination.ClicksStayInRange | frontend/src/components/common/Pagination.jsx:97-186 | every page any enabled button reports lies in `[1, total]` and differs from the current page |
| Pagination.ItemRange | frontend/src/components/common/Pagination.jsx:250-251 | the last item never exceeds the total and a page never holds more than the page size |
| Pagination.ItemRangeIsPage | frontend/src/components/common/Pagination.jsx:250-251 | an item is in the shown range exactly when it exists and lies on the current page |
| Gallery.Next | frontend/src/components/common/ImageGallery.jsx:73-75 | the next index stays in range and is `(i + 1) mod n` |
| Gallery.Prev | frontend/src/components/common/ImageGallery.jsx:69-71 | the previous index stays in range and is `(i - 1) mod n` |
| Gallery.PrevNextInverse | frontend/src/components/common/ImageGallery.jsx:69-75 | previous undoes next and next undoes previous |
| Gallery.SingleImage | frontend/src/components/common/ImageGallery.jsx:69-75 | with one image both arrows stay at 0 |
| Gallery.NextCycle | frontend/src/components/common/ImageGallery.jsx:73-75 | `n` steps of next return to the start |
| Gallery.NextTimesWraps | frontend/src/components/common/ImageGallery.jsx:73-75 | `k ≤ n` steps of next land `k` places on, wrapping once |
| Gallery.Navigate | frontend/src/components/common/ImageGallery.jsx:86-94 | a negative index goes to the last image, one past the end to the first, and an in-range index stays |
| Gallery.ModalArrowsWrapLikeSlides | frontend/src/components/common/ImageGallery.jsx:86-94 | the modal arrows wrap exactly like the slide arrows |
| Gallery.AutoplayStep | frontend/src/components/common/ImageGallery.jsx:20-30 | autoplay is inactive exactly when off or with at most one image, and otherwise steps like next |
| Gallery.GoToPrevious | frontend/src/components/common/ImageGallery.jsx:69-71 | going back keeps the gallery state valid |
| Gallery.GoToNext | frontend/src/components/common/ImageGallery.jsx:73-75 | going forward keeps the gallery state valid |
| Gallery.GoToSlide | frontend/src/components/common/ImageGallery.jsx:77-79 | jumping sets only the current slide and keeps validity for an in-range index |
| Gallery.OpenModal | frontend/src/components/common/ImageGallery.jsx:81-84 | opening the modal shows the chosen image and leaves the slide alone |
| Gallery.NavigateImage | frontend/src/components/common/ImageGallery.jsx:86-94 | modal navigation always lands in range and changes only the modal index |
| Gallery.KeyPress | frontend/src/components/common/ImageGallery.jsx:34-49 | keys act only while the modal is open: the arrows wrap the modal index and Escape closes it |
| PublicNav.OwnPathIsCurrent | frontend/src/components/layouts/PublicLayout.jsx:21-26 | every navigation entry is current on its own path |
| PublicNav.PrefixIsCharacterBased | frontend/src/components/layouts/PublicLayout.jsx:25 | the prefix test is by characters, so `/blog` is current on `/blogging` as well as on its sub-paths, while `/` is not current on `/blog` |
| PublicNav.AtMostOneCurrent | frontend/src/components/layouts/PublicLayout.jsx:13-26 | no pathname makes two entries current |
| PublicNav.ExactlyOneCurrent | frontend/src/components/layouts/PublicLayout.jsx:13-26 | on each entry's own path exactly that entry is current |
| Formatters.FormatPhoneNumber | frontend/src/utils/formatters.js:98-112 | empty input gives `N/A`; eleven digits starting `44` give `+44 dddd ddd dd` and ten starting `0` give `dddd ddd ddd`, in both cases with the output's digits equal to the input's; anything else is returned verbatim |
| Formatters.FormatPhoneIdempotent | frontend/src/utils/formatters.js:98-112 | formatting a formatted number changes nothing |
| Formatters.FormatAddress | frontend/src/utils/formatters.js:115-129 | a missing or empty address gives `N/A`; a string is returned as is; an object joins its present street, city, postcode and country |
| Formatters.PresentParts | frontend/src/utils/formatters.js:122-126 | the present parts are the non-empty fields filtered from street, city, postcode, country in that order, so the street leads when present |
| Formatters.SplitJoin | frontend/src/utils/formatters.js:128 | joining comma-free parts with `, ` and splitting again gives the parts back |
| Formatters.FormatAddressSplits | frontend/src/utils/formatters.js:122-128 | a formatted object address splits back into exactly its present fields, in order |
| Formatters.GetStatusConfig | frontend/src/utils/formatters.js:132-190 | the eight known statuses get their capitalised label; active, verified and published are exactly the success badges, pending exactly the warning one and rejected exactly the error one; any other status is its own label in grey; background and text classes always follow the colour |
| Formatters.StatusTitle | frontend/src/utils/formatters.js:132-190 | a status is labelled with something other than itself exactly when it is one of the eight table keys |
| Formatters.StatusTitleCapitalizes | frontend/src/utils/formatters.js:133-181 | every label in the table is its key with the first letter upper-cased |
| Formatters.StatusColor | frontend/src/utils/formatters.js:132-190 | the colour is success exactly for active, verified and published, warning exactly for pending, error exactly for rejected, and grey for every other status, known or not |
| Formatters.StatusLabelReadsBack | frontend/src/utils/formatters.js:133-181 | a known status's label lower-cases back to the status |
| Formatters.RelativeBucket | frontend/src/utils/formatters.js:57-70 | below 60 s is "just now", from 30 days on is the absolute date, otherwise the count is the floor of the age in the largest unit giving at least one |
| Formatters.NatToStringValue | frontend/src/utils/formatters.js:61 | the rendered count reads back as the count |
| Formatters.RelativeText | frontend/src/utils/formatters.js:57-70 | ages under a minute read "Just now" and ages of 30 days or more read as the date |
| Formatters.RelativeTextReadsBack | frontend/src/utils/formatters.js:59-67 | a counted age reads as the count, the unit, and a plural `s` exactly when the count exceeds one |
| Validators.EmailBodyIff | backend/app/utils/validators.py:10-11 | the e-mail recogniser accepts exactly `local@domain.tld` with the pattern's character classes and a top-level domain of two or more letters |
| Validators.ValidateEmail | backend/app/utils/validators.py:5-11 | empty input fails; otherwise the address, or the address without one trailing newline, must match |
| Validators.ValidateEmailStrict | backend/app/utils/validators.py:10-11 | the whole string matches the address pattern, and an accepted address holds no newline |
| Validators.EmailTrailingNewlineAccepted | backend/app/utils/validators.py:10-11 | any valid address with a newline appended is still accepted as written |
| Validators.ValidatePassword | backend/app/utils/validators.py:13-23 | true exactly for eight or more characters including an upper-case letter, a lower-case letter and a digit |
| Validators.ValidatePhone | backend/app/utils/validators.py:25-37 | true exactly when the input is non-empty and has 10 to 15 digits |
| Validators.FormattedPhoneValidity | backend/app/utils/validators.py:25-37 | display formatting never changes whether a number validates |
| Validators.UkFormattedPhoneIsValid | backend/app/utils/validators.py:34-35 | every number laid out in a UK form validates |
| Validators.PostcodeBodyIff | backend/app/utils/validators.py:45 | the postcode recogniser accepts exactly the eight shapes of 1–2 letters, a digit, an optional alphanumeric, an optional space, a digit and two letters |
| Validators.ValidatePostcode | backend/app/utils/validators.py:39-46 | empty input fails; the upper-cased input must match, so an accepted postcode has 5 to 9 characters |
| Validators.PostcodeCaseInsensitive | backend/app/utils/validators.py:46 | the postcode check does not depend on letter case |
| Validators.RemoveUnsafe | backend/app/utils/validators.py:66 | removes exactly the characters `< > " '` and keeps every other character |
| Validators.RemoveUnsafeAppend | backend/app/utils/validators.py:66 | removal distributes over concatenation, so the kept characters stay in their order |
| Validators.SanitizeString | backend/app/utils/validators.py:60-67 | empty input gives ""; the output has no `< > " '`, and is the input with those characters removed and then its surrounding whitespace, and only that, cut |
| Validators.SanitizeIdempotent | backend/app/utils/validators.py:60-67 | sanitising twice equals sanitising once |
| Validators.Extension | backend/app/utils/validators.py:74 | the extension holds no dot and is the lower-cased text after the last `.`, or "" without one |
| Validators.ValidateFileExtension | backend/app/utils/validators.py:69-75 | an empty name fails; a name without `.` passes exactly when "" is allowed; a name with one passes exactly when the lower-cased text after its last `.` is allowed, so an allowed entry holding a dot never matches |
| Validators.ExtensionCaseInsensitive | backend/app/utils/validators.py:74 | the extension does not depend on the name's letter case |
| Validators.RangeChecksInclusive | backend/app/utils/validators.py:48-82 | price must be positive; yield and BMV score lie in `[0, 100]` and investment amounts by default in `[50000, 10000000]`, both ends included; a missing value always fails; a file size passes up to and including the maximum |
| Validators.VocabularyCase | backend/app/utils/validators.py:85-109 | property types and strategies are compared lower-cased; languages and user types are compared as written |
| Validators.StatusVocabulariesAgree | backend/app/utils/validators.py:111-117 | the backend accepts exactly the statuses the frontend has a badge for |
| Matching.DiscountTerm | backend/app/services/matching_service.py:22-25 | nothing unless both prices are set; otherwise two points per percent of discount up to a 20 % discount and 40 from there on, so at most 40, non-negative for a discount and negative for a premium |
| Matching.YieldTerm | backend/app/services/matching_service.py:35-42 | the yield term is 15 exactly from 8 percent, 10 exactly from 6 up to 8, 5 exactly from 4 up to 6, and 0 below 4 |
| Matching.YieldTermMonotone | backend/app/services/matching_service.py:35-42 | a higher yield never earns fewer points |
| Matching.RoiTerm | backend/app/services/matching_service.py:45-46 | the ROI term is the ROI up to 10 and exactly 10 from there on |
| Matching.BmvScore | backend/app/services/matching_service.py:15-48 | the BMV score never exceeds 100 |
| Matching.BmvYieldContribution | backend/app/services/matching_service.py:35-48 | below the cap, changing only the net yield changes the BMV score by exactly the difference of the yield tier points |
| Matching.BmvRoiContribution | backend/app/services/matching_service.py:44-48 | below the cap, changing only the ROI potential changes the BMV score by exactly the difference of the ROI terms |
| Matching.BmvAddsLocationAndCondition | backend/app/services/matching_service.py:26-48 | below the cap, the location and condition scores are added to the BMV score unchanged |
| Matching.BmvMonotoneInPrice | backend/app/services/matching_service.py:23-25 | at a fixed market value a lower asking price never lowers the score |
| Matching.BmvScoreCanBeNegative | backend/app/services/matching_service.py:48 | with no lower clamp a premium yields a negative score that the backend's own score validator rejects |
| Matching.BudgetTerm | backend/app/services/matching_service.py:109-116 | the budget term is non-negative, at most 30 on an ordered budget, 0 when either bound or the price is unset, and raises exactly when the budget range is zero and a price is set |
| Matching.BudgetTermShape | backend/app/services/matching_service.py:110-116 | on a proper budget the term is 30 at the centre and 0 from one budget range away |
| Matching.InvertedBudgetExceedsThirty | backend/app/services/matching_service.py:110-116 | with minimum above maximum the term exceeds 30 |
| Matching.LocationTerm | backend/app/services/matching_service.py:118-121 | 25 points exactly when the region is set and targeted |
| Matching.TypeTerm | backend/app/services/matching_service.py:123-126 | 20 points exactly when the type is set and wanted |
| Matching.MinYieldTerm | backend/app/services/matching_service.py:128-131 | 15 points exactly when a set yield reaches a set minimum |
| Matching.StrategyTerm | backend/app/services/matching_service.py:133-136 | 10 points exactly when both strategies are set and equal |
| Matching.MatchScore | backend/app/services/matching_service.py:100-138 | the match score lies in `[0, 100]` and raises exactly when the budget term does |
| Matching.MatchScoreContributions | backend/app/services/matching_service.py:118-138 | below the cap, changing only the region, type, net yield or strategy changes the match score by exactly the difference of that criterion's term, so a mismatch costs exactly its points |
| Matching.MatchScoreBudgetContribution | backend/app/services/matching_service.py:109-138 | below the cap, changing only the asking price changes the match score by exactly the difference of the budget terms |
| Matching.MatchScoreFull | backend/app/services/matching_service.py:109-138 | a property meeting every preference at the budget centre scores exactly 100 |
| Matching.Score | backend/app/services/matching_service.py:84-93 | a match's total is the mean of its match and BMV scores and is at most 100 |
| Matching.ScoreAll | backend/app/services/matching_service.py:84-93 | all fetched properties are scored in order, unless some score raises |
| Matching.Insert | backend/app/services/matching_service.py:96 | insertion into a non-increasing ranking keeps it non-increasing and adds exactly the one match |
| Matching.RankMatches | backend/app/services/matching_service.py:96 | the ranking is non-increasing by total score and a permutation of the matches |
| Matching.MatchInvestor | backend/app/services/matching_service.py:82-98 | the result is the scored matches, ranked |
| Matching.Unseen | backend/app/services/matching_service.py:151-155 | a match is kept exactly when the investor has no deal on its property |
| Matching.GetInvestorRecommendations | backend/app/services/matching_service.py:140-171 | an unknown investor gets nothing; otherwise the first unseen matches in ranked order, as many as the limit allows (one at least) |
| Matching.CreateDealInterest | backend/app/services/matching_service.py:173-203 | afterwards the pair has exactly one deal with the given interest level, and no other deal changes; a new deal is pending; an existing deal changes only its level and time stamp |
| Matching.DefaultInterestIsInterested | backend/app/services/matching_service.py:173-174 | with the default interest level the pair's deal is "interested", and a new deal is pending with no time stamp |
| Matching.CreateDealInterestSettles | backend/app/services/matching_service.py:178-189 | expressing interest again keeps the same deals and changes only the pair's level and time stamp, never its status |

## Findings

| source | as written | input that shows it | evidently intended | confidence | as-written member | corrected member |
|---|---|---|---|---|---|---|
| backend/app/utils/validators.py:10-11 | `re.match` with a `$`-anchored pattern, and `$` also matches before a final newline | any valid address followed by "\n", e.g. `ab@cd.ef` + "\n" | the whole string must be an address (`re.fullmatch` or `\Z`) | not executed; high | Validators.EmailTrailingNewlineAccepted | Validators.ValidateEmailStrict |

## Left out

- Matching takes every attribute the service reads at face value. The repository's own models differ. `Investor` is imported but not defined: the model module defines `InvestorProfile`. `Property` has no `market_value`, `net_yield`, `location_score`, `condition_score`, `roi_potential`, `region`, `investment_strategy`, `title`, `location` or `images`. `Deal` has no `interest_level`, so the constructor call in `create_deal_interest` would raise as written. The model assumes records that have these fields.
- Auth.Authenticate: a `user` field that is not an object, or a `token` field that is not a string, is taken as absent in the session. A number or list `token` is persisted as "undefined", not as JavaScript's string conversion of it.
- Guards.HasFeature: a `features` value that is a number, a boolean or an object makes the source's `includes` call throw a TypeError. The model treats such a user as lacking the feature.
- Locale.Initialize / Locale.ChangeLanguage: the i18next language detector caches the language in `localStorage` itself (`caches: ['localStorage']`). That cache entry is left out, so the modelled storage holds only the provider's `language` key.
- Python floats are modelled as exact reals. The matching service calls no rounding function, and the rounding of each float operation is not modelled.
- Network calls, React state hooks, effects and timers are left out. Service results are parameters (`Outcome`), and the autoplay interval is one step function.
- The SQL query of `match_investor_to_properties` is left out: the published-status, budget, region, type and yield filters and the `limit` of the fetch. The model ranks the fetched rows it is given.
- The recommendation rows take the ranked matches as a parameter, so the `limit * 2` fetch size is left out too.
- `get_property_analytics` and `_calculate_avg_match_score` are left out. They are float ratios over a query result.
- i18next, `document` side effects other than `dir` and `lang`, and the duplicate provider are library wiring and are left out.
- `formatRelativeTime` starts from a whole-second age. Reading the clock and parsing the date are left out, as is the missing-date `N/A` case. The absolute-date wording is a parameter, because `formatDate` uses the locale library.
- Python's `str.upper`, `str.lower`, `str.strip` and `\d`, and JavaScript's `\D`, are modelled over ASCII only. Non-ASCII characters that upper-case to ASCII letters (such as `ſ`) are not modelled.
- The postcode check uses the same `$` anchor, so it accepts one trailing newline as written. It is modelled that way but not listed as a separate finding.
- Object-prototype keys (`configs["constructor"]`, `status in` on inherited names) are not modelled. Status lookup is over the eight own keys.
- Missing Python values (`None`) are folded onto the falsy value of their type (0, "", empty list). The matching rules treat both alike through truthiness. The range validators take an `Option`, because they test `is not None`.
- The match score's `ZeroDivisionError` is modelled as `None`. The exception's propagation through the service is not modelled.
- Matching.RankMatches: Python's sort is stable. The model proves order and permutation but does not state that equal totals keep their fetched order.
- Concurrency is left out: racing logins and the ordering of asynchronous effects.
- `ValidatePrice`, `ValidateYield`, `ValidateBmvScore`, `ValidateInvestmentAmount`, `ValidateFileSize`, `ValidatePropertyType`, `ValidateStrategy`, `ValidateLanguage`, `ValidateUserType` and `ValidateStatus` are one-line predicates without contracts of their own. The range checks are stated by `Validators.RangeChecksInclusive`, and the vocabularies by `Validators.VocabularyCase` and `Validators.StatusVocabulariesAgree`.

=== FILE: api.dfy ===
/** The HTTP client's two interceptors: the request interceptor attaches
    the bearer header from `access_token`; the response error interceptor
    turns a 401 into clearing the stored tokens and one navigation to the
    login page. The browser is the stored entries plus the current path. */
module ApiClient {
  import opened Base

  const LoginPath := "/auth/login"

  /** The keys this client reads and clears; the session store persists its
      token under a different key, `token`. */
  const AccessTokenKey := "access_token"
  const RefreshTokenKey := "refresh_token"

  type Headers = map<string, string>

  /** The request interceptor: `Authorization: Bearer <token>` when a
      non-empty `access_token` is stored, otherwise the headers pass
      through. */
  function OnRequest(st: Storage, headers: Headers): (r: Headers)
    ensures TruthyItem(GetItem(st, AccessTokenKey)) ==>
      "Authorization" in r && r["Authorization"] == "Bearer " + st[AccessTokenKey]
    ensures !TruthyItem(GetItem(st, AccessTokenKey)) ==> r == headers
    ensures forall k :: k in headers && k != "Authorization" ==> k in r && r[k] == headers[k]
    ensures r.Keys == headers.Keys + (if TruthyItem(GetItem(st, AccessTokenKey)) then {"Authorization"} else {})
  {
    var token := GetItem(st, AccessTokenKey);
    if TruthyItem(token) then headers["Authorization" := "Bearer " + token.value] else headers
  }

  /** The browser state the response interceptor reads and changes. */
  datatype Browser = Browser(storage: Storage, pathname: string)

  /** A failed response: `status` is absent for a transport error. */
  datatype HttpError = HttpError(status: Option<int>, message: string)

  /** The response error interceptor: the new browser state, and the error
      it re-rejects. A 401 removes both stored tokens and, unless already on
      the login page, navigates there. */
  function OnResponseError(b: Browser, e: HttpError): (r: (Browser, HttpError))
    ensures r.1 == e
    ensures e.status == Some(401) ==>
      AccessTokenKey !in r.0.storage && RefreshTokenKey !in r.0.storage
      && r.0.storage == b.storage - {AccessTokenKey, RefreshTokenKey}
      && r.0.pathname == LoginPath
    ensures e.status != Some(401) ==> r.0 == b
    ensures r.0.pathname != b.pathname <==> e.status == Some(401) && b.pathname != LoginPath
  {
    if e.status == Some(401) then
      var cleared := b.storage - {AccessTokenKey, RefreshTokenKey};
      (Browser(cleared, if b.pathname != LoginPath then LoginPath else b.pathname), e)
    else
      (b, e)
  }

  /** Handling a 401 twice leaves the browser as handling it once, and the
      second time no navigation happens: there is no redirect loop. */
  lemma UnauthorizedIdempotent(b: Browser, e1: HttpError, e2: HttpError)
    requires e1.status == Some(401) && e2.status == Some(401)
    ensures OnResponseError(OnResponseError(b, e1).0, e2).0 == OnResponseError(b, e1).0
    ensures OnResponseError(OnResponseError(b, e1).0, e2).0.pathname == OnResponseError(b, e1).0.pathname
  {
  }

  /** A 401 leaves the session store's persisted `token` in place: the two
      parts of the client use different keys. */
  lemma UnauthorizedKeepsSessionToken(b: Browser, e: HttpError)
    requires e.status == Some(401) && "token" in b.storage
    ensures "token" in OnResponseError(b, e).0.storage
    ensures OnResponseError(b, e).0.storage["token"] == b.storage["token"]
  {
  }

  /** A token persisted by a login (under `token`) is never sent: with no
      `access_token` stored, requests carry no added header. */
  lemma LoginTokenNotAttached(st: Storage, token: string, headers: Headers)
    requires AccessTokenKey !in st
    ensures OnRequest(st["token" := token], headers) == headers
  {
  }
}

=== FILE: auth.dfy ===
/** The client session store: a reducer over a Session record and the
    asynchronous drivers (start-up, login/register, logout, profile update)
    that dispatch into it and persist the bearer token under the `token`
    key of `localStorage`. Network results are parameters. */
module Auth {
  import opened Base

  /** A field value of a JavaScript object as the API returns it. */
  datatype Value =
    | Null
    | Bool(b: bool)
    | Num(n: int)
    | Str(s: string)
    | List(items: seq<Value>)
    | Obj(fields: map<string, Value>)

  /** JavaScript truthiness of a field value. */
  predicate Truthy(v: Value) {
    match v
    case Null => false
    case Bool(b) => b
    case Num(n) => n != 0
    case Str(s) => s != ""
    case List(_) => true
    case Obj(_) => true
  }

  /** A JavaScript object: the user record, a payload, a result object. */
  type Object = map<string, Value>

  /** Optional chaining `obj?.key`: absent when the object is `null` or has
      no such field. */
  function Field(obj: Option<Object>, key: string): (r: Option<Value>)
    ensures r.Some? <==> obj.Some? && key in obj.value
  {
    if obj.Some? && key in obj.value then Some(obj.value[key]) else None
  }

  datatype Session = Session(
    user: Option<Object>,
    token: Option<string>,
    isAuthenticated: bool,
    isLoading: bool,
    error: Option<string>)

  datatype Action =
    | AuthStart
    | AuthSuccess(user: Option<Object>, token: Option<string>)
    | AuthFailure(error: Option<string>)
    | Logout
    | UpdateUser(patch: Object)
    | Unrecognised(kind: string)

  /** The session before the start-up effect has run: loading, no user,
      and whatever `token` was persisted. */
  function InitialSession(st: Storage): (s: Session)
    ensures s.isLoading && !s.isAuthenticated && s.user.None? && s.error.None?
    ensures s.token == GetItem(st, "token")
  {
    Session(None, GetItem(st, "token"), false, true, None)
  }

  /** The signed-out session that LOGOUT produces. */
  const SignedOut := Session(None, None, false, false, None)

  /** Object spread `{...base, ...patch}`: spreading `null` contributes no
      field, and a field of `patch` wins over the same field of `base`. */
  function Spread(base: Option<Object>, patch: Object): (r: Object)
    ensures r.Keys == patch.Keys + (if base.Some? then base.value.Keys else {})
    ensures forall k :: k in patch ==> r[k] == patch[k]
    ensures base.Some? ==> forall k :: k in base.value && k !in patch ==> r[k] == base.value[k]
    ensures base.None? ==> r == patch
  {
    if base.Some? then base.value + patch else patch
  }

  /** `authReducer`. */
  function Reduce(s: Session, a: Action): (r: Session)
    // AUTH_START: loading, error cleared, identity untouched
    ensures a.AuthStart? ==>
      r.isLoading && r.error.None? && r.user == s.user && r.token == s.token
      && r.isAuthenticated == s.isAuthenticated
    // AUTH_SUCCESS: the payload becomes the authenticated identity, even
    // when a field of it is `undefined`
    ensures a.AuthSuccess? ==>
      r.user == a.user && r.token == a.token && r.isAuthenticated
      && r.error.None?
    // AUTH_FAILURE: identity cleared and the payload kept as the error
    ensures a.AuthFailure? ==>
      r.user.None? && r.token.None? && !r.isAuthenticated && r.error == a.error
    // LOGOUT: the same signed-out session from every state
    ensures a.Logout? ==> r == SignedOut
    // settling actions end loading
    ensures a.AuthSuccess? || a.AuthFailure? || a.Logout? ==> !r.isLoading
    // UPDATE_USER: only the user changes, by a shallow merge
    ensures a.UpdateUser? ==>
      r.user == Some(Spread(s.user, a.patch))
      && r.token == s.token && r.isAuthenticated == s.isAuthenticated
      && r.isLoading == s.isLoading && r.error == s.error
    ensures a.Unrecognised? ==> r == s
  {
    match a
    case AuthStart => s.(isLoading := true, error := None)
    case AuthSuccess(u, t) =>
      s.(user := u, token := t, isAuthenticated := true, isLoading := false, error := None)
    case AuthFailure(e) =>
      s.(user := None, token := None, isAuthenticated := false, isLoading := false, error := e)
    case Logout =>
      s.(user := None, token := None, isAuthenticated := false, isLoading := false, error := None)
    case UpdateUser(p) => s.(user := Some(Spread(s.user, p)))
    case Unrecognised(_) => s
  }

  /** What the store keeps true: an authenticated session has a user and a
      token and no error, and a loading session has no settled error. */
  predicate Coherent(s: Session) {
    && (s.isAuthenticated ==> s.user.Some? && s.token.Some? && s.error.None?)
    && (s.isLoading ==> s.error.None?)
  }

  lemma InitialCoherent(st: Storage)
    ensures Coherent(InitialSession(st))
  {
  }

  /** An AUTH_SUCCESS payload that holds both a user and a token; every
      other action is complete as it stands. */
  predicate CompletePayload(a: Action) {
    a.AuthSuccess? ==> a.user.Some? && a.token.Some?
  }

  /** From a coherent session, an action keeps coherence exactly when its
      payload is complete: AUTH_SUCCESS without a user or a token leaves an
      authenticated session lacking it. */
  lemma ReducePreservesCoherent(s: Session, a: Action)
    requires Coherent(s)
    ensures Coherent(Reduce(s, a)) <==> CompletePayload(a)
  {
  }

  /** The session after dispatching a sequence of actions in order. */
  function ReduceAll(s: Session, actions: seq<Action>): Session
    decreases |actions|
  {
    if |actions| == 0 then s else ReduceAll(Reduce(s, actions[0]), actions[1..])
  }

  /** Every session reachable from start-up by dispatches with complete
      payloads is coherent; in particular `isAuthenticated` then implies a
      user and a token. */
  lemma {:induction false} ReachableCoherent(st: Storage, actions: seq<Action>)
    requires forall i :: 0 <= i < |actions| ==> CompletePayload(actions[i])
    ensures Coherent(ReduceAll(InitialSession(st), actions))
  {
    CoherentAfter(InitialSession(st), actions);
  }

  lemma {:induction false} CoherentAfter(s: Session, actions: seq<Action>)
    requires Coherent(s)
    requires forall i :: 0 <= i < |actions| ==> CompletePayload(actions[i])
    ensures Coherent(ReduceAll(s, actions))
    decreases |actions|
  {
    if |actions| > 0 {
      ReducePreservesCoherent(s, actions[0]);
      CoherentAfter(Reduce(s, actions[0]), actions[1..]);
    }
  }

  /** One incomplete AUTH_SUCCESS is enough to break coherence from
      start-up, whatever was persisted. */
  lemma IncompleteSuccessBreaksCoherence(st: Storage, user: Option<Object>)
    ensures var s := ReduceAll(InitialSession(st), [AuthStart, AuthSuccess(user, None)]);
      s.isAuthenticated && s.token.None? && !Coherent(s)
  {
    var s0 := InitialSession(st);
    var s1 := Reduce(s0, AuthStart);
    var s2 := Reduce(s1, AuthSuccess(user, None));
    assert [AuthStart, AuthSuccess(user, None)][1..] == [AuthSuccess(user, None)];
    assert [AuthSuccess(user, None)][1..] == [];
    assert ReduceAll(s1, [AuthSuccess(user, None)]) == ReduceAll(s2, []) == s2;
  }

  /** The converse of coherence fails: with a persisted token, a profile
      update before start-up finishes gives a user and a token while the
      session is still unauthenticated. */
  lemma UserAndTokenWithoutAuthentication()
    ensures var s := Reduce(InitialSession(map["token" := "t"]), UpdateUser(map[]));
      s.user.Some? && s.token.Some? && !s.isAuthenticated
  {
  }

  /** UPDATE_USER on a signed-out session is not a no-op: the payload
      becomes the user, while the session stays unauthenticated. */
  lemma UpdateUserWhenSignedOut(p: Object)
    ensures Reduce(SignedOut, UpdateUser(p)).user == Some(p)
    ensures Reduce(SignedOut, UpdateUser(p)) != SignedOut
    ensures !Reduce(SignedOut, UpdateUser(p)).isAuthenticated
  {
  }

  // ---------------------------------------------------------------------
  // Drivers

  /** The store together with the persisted key/value entries. */
  datatype Client = Client(session: Session, storage: Storage)

  /** Result of a call to the authentication service. */
  datatype Outcome<T> = Ok(value: T) | Err(message: string)

  /** What `const { user, token } = body` binds, as far as the session
      can hold it: `user` when it is an object, `token` when it is a
      string; anything else is taken as `undefined`. */
  datatype Credentials = Credentials(user: Option<Object>, token: Option<string>)

  function Destructure(body: Object): (r: Credentials)
    ensures r.user.Some? <==> Field(Some(body), "user").Some? && body["user"].Obj?
    ensures r.user.Some? ==> r.user.value == body["user"].fields
    ensures r.token.Some? <==> Field(Some(body), "token").Some? && body["token"].Str?
    ensures r.token.Some? ==> r.token.value == body["token"].s
  {
    Credentials(
      if "user" in body && body["user"].Obj? then Some(body["user"].fields) else None,
      if "token" in body && body["token"].Str? then Some(body["token"].s) else None)
  }

  /** The text `localStorage.setItem('token', token)` stores: JavaScript's
      string conversion of the bound value (`undefined` when the field is
      missing). */
  function StoredToken(body: Object): (r: string)
    ensures "token" !in body ==> r == "undefined"
    ensures "token" in body && body["token"].Str? ==> r == body["token"].s
    ensures "token" in body && body["token"].Null? ==> r == "null"
  {
    if "token" !in body then "undefined"
    else match body["token"]
      case Str(t) => t
      case Null => "null"
      case Bool(b) => if b then "true" else "false"
      case Obj(_) => "[object Object]"
      case _ => "undefined"
  }

  /** `initializeAuth`: dispatches into the session after reading the
      persisted `token`; `fetched` is the answer of the current-user
      request, used only when a token is persisted. */
  function InitializeAuth(c: Client, fetched: Outcome<Object>): (r: Client)
    ensures !r.session.isLoading
    ensures !TruthyItem(GetItem(c.storage, "token")) ==>
      r.storage == c.storage
      && r.session == c.session.(user := None, token := None, isAuthenticated := false,
                                 isLoading := false, error := None)
    ensures TruthyItem(GetItem(c.storage, "token")) && fetched.Ok? ==>
      r.storage == c.storage && r.session.isAuthenticated
      && r.session.user == Some(fetched.value)
      && r.session.token == Some(c.storage["token"])
    ensures TruthyItem(GetItem(c.storage, "token")) && fetched.Err? ==>
      r.storage == c.storage - {"token"} && !r.session.isAuthenticated
      && r.session.user.None? && r.session.error == Some(fetched.message)
  {
    var token := GetItem(c.storage, "token");
    if TruthyItem(token) then
      var started := Reduce(c.session, AuthStart);
      match fetched
      case Ok(u) => Client(Reduce(started, AuthSuccess(Some(u), Some(token.value))), c.storage)
      case Err(m) => Client(Reduce(started, AuthFailure(Some(m))), c.storage - {"token"})
    else
      Client(Reduce(c.session, AuthFailure(None)), c.storage)
  }

  /** Start-up with nothing persisted is idempotent: a second run leaves
      the same signed-out session, whatever the network would answer. */
  lemma InitializeWithoutTokenIdempotent(c: Client, f1: Outcome<Object>, f2: Outcome<Object>)
    requires !TruthyItem(GetItem(c.storage, "token"))
    ensures InitializeAuth(InitializeAuth(c, f1), f2) == InitializeAuth(c, f1)
    ensures InitializeAuth(c, f1).session == SignedOut
  {
  }

  /** The `{success, error}` object that `login` and `register` return. */
  function AuthResult(outcome: Outcome<Object>): Object
  {
    match outcome
    case Ok(_) => map["success" := Bool(true)]
    case Err(m) => map["success" := Bool(false), "error" := Str(m)]
  }

  /** `login` and `register` (they share one body): AUTH_START, the service
      call, then either the response body's `token` is persisted and
      AUTH_SUCCESS dispatched with its `user` and `token`, whether present
      or not, or AUTH_FAILURE carries the error message. */
  function Authenticate(c: Client, outcome: Outcome<Object>): (r: (Client, Object))
    ensures "success" in r.1 && r.1["success"] == Bool(outcome.Ok?)
    ensures outcome.Err? <==> "error" in r.1
    ensures outcome.Err? ==> r.1["error"] == Str(outcome.message)
    ensures "user" !in r.1 && "requiresVerification" !in r.1
    ensures !r.0.session.isLoading
    ensures outcome.Ok? ==>
      r.0.storage == c.storage["token" := StoredToken(outcome.value)]
      && r.0.session.isAuthenticated && r.0.session.error.None?
      && r.0.session.user == Destructure(outcome.value).user
      && r.0.session.token == Destructure(outcome.value).token
    ensures outcome.Err? ==>
      r.0.storage == c.storage
      && r.0.session == c.session.(user := None, token := None, isAuthenticated := false,
                                   isLoading := false, error := Some(outcome.message))
  {
    var started := Reduce(c.session, AuthStart);
    match outcome
    case Ok(body) =>
      var cr := Destructure(body);
      (Client(Reduce(started, AuthSuccess(cr.user, cr.token)), c.storage["token" := StoredToken(body)]),
       AuthResult(outcome))
    case Err(m) =>
      (Client(Reduce(started, AuthFailure(Some(m))), c.storage), AuthResult(outcome))
  }

  /** A body holding an object `user` and a string `token` keeps a
      coherent session coherent; one lacking either does not. */
  lemma AuthenticateCoherent(c: Client, body: Object)
    requires Coherent(c.session)
    ensures Coherent(Authenticate(c, Ok(body)).0.session) <==>
      "user" in body && body["user"].Obj? && "token" in body && body["token"].Str?
  {
  }

  /** The login body the back end sends, `{access_token, refresh_token,
      user}`, has no `token`: the string "undefined" is persisted and the
      session is authenticated without a token. */
  lemma BackendLoginBodyHasNoToken(c: Client, access: string, refresh: string, user: Object)
    ensures var body := map["access_token" := Str(access), "refresh_token" := Str(refresh), "user" := Obj(user)];
      var r := Authenticate(c, Ok(body)).0;
      && r.storage["token"] == "undefined"
      && r.session.isAuthenticated && r.session.user == Some(user) && r.session.token.None?
      && !Coherent(r.session)
  {
  }

  /** The register body the back end sends, `{message, user_id}`, has
      neither `user` nor `token`: the session is authenticated with
      neither. */
  lemma BackendRegisterBodyHasNoIdentity(c: Client, message: string, userId: int)
    ensures var body := map["message" := Str(message), "user_id" := Num(userId)];
      var r := Authenticate(c, Ok(body)).0;
      && r.storage["token"] == "undefined"
      && r.session.isAuthenticated && r.session.user.None? && r.session.token.None?
  {
  }

  /** `logout`: removes only the persisted `token` and signs out. */
  function SignOut(c: Client): (r: Client)
    ensures r.session == SignedOut
    ensures "token" !in r.storage
    ensures forall k :: k in c.storage && k != "token" ==> k in r.storage && r.storage[k] == c.storage[k]
  {
    Client(Reduce(c.session, Logout), c.storage - {"token"})
  }

  /** `updateUser`: merges into the user, persisting nothing. */
  function UpdateProfile(c: Client, patch: Object): (r: Client)
    ensures r.storage == c.storage
    ensures r.session.user.Some?
    ensures var u := r.session.user.value;
      && (forall k :: k in patch ==> k in u && u[k] == patch[k])
      && (forall k :: k in u && k !in patch ==> c.session.user.Some? && k in c.session.user.value)
      && (c.session.user.Some? ==>
            forall k :: k in c.session.user.value && k !in patch ==> k in u && u[k] == c.session.user.value[k])
    ensures r.session.(user := c.session.user) == c.session
  {
    Client(Reduce(c.session, UpdateUser(patch)), c.storage)
  }

  // ---------------------------------------------------------------------
  // What the form pages do with the result object

  /** Optional chaining one level further, `v?.key`, on a field value. */
  function Member(v: Option<Value>, key: string): (r: Option<Value>)
    ensures r.Some? ==> v.Some? && v.value.Obj? && key in v.value.fields
  {
    if v.Some? && v.value.Obj? && key in v.value.fields then Some(v.value.fields[key]) else None
  }

  /** The login page's redirect after a successful result: the `from`
      location if any, else the admin dashboard when `result.user?.role`
      is `admin`, else the portal dashboard. */
  function PostLoginTarget(result: Object, from: Option<string>): string
  {
    if TruthyItem(from) then from.value
    else if Member(Field(Some(result), "user"), "role") == Some(Str("admin")) then "/admin/dashboard"
    else "/portal/dashboard"
  }

  /** `login` never returns a `user`, so without a `from` location even an
      administrator is sent to the portal dashboard. */
  lemma LoginNeverReachesAdminDashboard(c: Client, outcome: Outcome<Object>)
    ensures PostLoginTarget(Authenticate(c, outcome).1, None) == "/portal/dashboard"
  {
  }

  /** `register` never returns `requiresVerification`, so the registration
      page's verify-your-email branch is never taken. */
  lemma RegisterNeverRequiresVerification(c: Client, outcome: Outcome<Object>)
    ensures Field(Some(Authenticate(c, outcome).1), "requiresVerification").None?
  {
  }
}

=== FILE: base.dfy ===
/** Small shared vocabulary: optional values and the browser's key/value
    store (`localStorage`), which the session store, the HTTP client and
    the locale store all read and write. */
module Base {

  /** A value that may be absent (`null` / `undefined` / `None`). */
  datatype Option<+T> = None | Some(value: T) {
    function GetOr(default: T): T {
      match this
      case Some(v) => v
      case None => default
    }
  }

  /** `localStorage`: string keys to string values. */
  type Storage = map<string, string>

  /** `localStorage.getItem(key)`: the stored string, or `null`. */
  function GetItem(st: Storage, key: string): (r: Option<string>)
    ensures r.Some? <==> key in st
    ensures r.Some? ==> r.value == st[key]
  {
    if key in st then Some(st[key]) else None
  }

  /** JavaScript truthiness of a value read from storage: `null` and the
      empty string are falsy. */
  predicate TruthyItem(o: Option<string>) {
    o.Some? && o.value != ""
  }
}

=== FILE: chars.dfy ===
/** ASCII character classes and the string clean-ups built on them
    (digit filtering, case mapping, whitespace stripping). Every regular
    expression of the formatters and validators is recognised with these. */
module Chars {

  predicate IsDigit(c: char) { '0' <= c <= '9' }
  predicate IsUpper(c: char) { 'A' <= c <= 'Z' }
  predicate IsLower(c: char) { 'a' <= c <= 'z' }
  predicate IsLetter(c: char) { IsUpper(c) || IsLower(c) }
  predicate IsAlnum(c: char) { IsLetter(c) || IsDigit(c) }

  /** The ASCII characters for which Python's `str.isspace` holds. */
  predicate IsSpace(c: char) {
    c == ' ' || c == '\t' || c == '\n' || c == '\r' || c == '\U{B}' || c == '\U{C}'
    || ('\U{1C}' <= c <= '\U{1F}')
  }

  function UpperChar(c: char): (r: char)
    ensures IsLetter(c) ==> IsUpper(r)
    ensures IsLetter(r) <==> IsLetter(c)
    ensures IsDigit(r) <==> IsDigit(c)
    ensures !IsLower(c) ==> r == c
  {
    if IsLower(c) then (c as int - 32) as char else c
  }

  function LowerChar(c: char): (r: char)
    ensures IsLetter(c) ==> IsLower(r)
    ensures IsLetter(r) <==> IsLetter(c)
    ensures !IsUpper(c) ==> r == c
  {
    if IsUpper(c) then (c as int + 32) as char else c
  }

  /** `str.upper()` restricted to ASCII letters. */
  function ToUpper(s: string): (r: string)
    ensures |r| == |s|
    ensures forall i :: 0 <= i < |s| ==> r[i] == UpperChar(s[i])
  {
    seq(|s|, i requires 0 <= i < |s| => UpperChar(s[i]))
  }

  /** `str.lower()` restricted to ASCII letters. */
  function ToLower(s: string): (r: string)
    ensures |r| == |s|
    ensures forall i :: 0 <= i < |s| ==> r[i] == LowerChar(s[i])
  {
    seq(|s|, i requires 0 <= i < |s| => LowerChar(s[i]))
  }

  /** Upper-casing forgets the case the input was written in. */
  lemma UpperOfLower(s: string)
    ensures ToUpper(ToLower(s)) == ToUpper(s)
  {
  }

  /** Lower-casing forgets the case the input was written in. */
  lemma LowerOfUpper(s: string)
    ensures ToLower(ToUpper(s)) == ToLower(s)
  {
  }

  /** The index of the first `c` in a string that holds one. */
  function FirstIndex(s: string, c: char): (k: nat)
    requires c in s
    ensures k < |s| && s[k] == c && c !in s[..k]
  {
    if s[0] == c then 0
    else
      assert c in s[1..] by {
        var i :| 0 <= i < |s| && s[i] == c;
        assert s[1..][i - 1] == c;
      }
      var k := FirstIndex(s[1..], c) + 1;
      assert s[..k] == [s[0]] + s[1..][..k - 1];
      k
  }

  /** The index of the last `c` in a string that holds one
      (`rsplit(c, 1)` splits there). */
  function LastIndex(s: string, c: char): (k: nat)
    requires c in s
    ensures k < |s| && s[k] == c && c !in s[k + 1..]
  {
    var n := |s| - 1;
    if s[n] == c then
      assert s[n + 1..] == [];
      n
    else
      assert c in s[..n] by {
        var i :| 0 <= i < |s| && s[i] == c;
        assert s[..n][i] == c;
      }
      var k := LastIndex(s[..n], c);
      assert s[k + 1..] == s[..n][k + 1..] + [s[n]];
      k
  }

  /** Removal of every non-digit, as `replace(/\D/g, '')` and
      `re.sub(r'\D', '', s)` do. */
  function Digits(s: string): (r: string)
    ensures |r| <= |s|
    ensures forall i :: 0 <= i < |r| ==> IsDigit(r[i])
    ensures (forall i :: 0 <= i < |s| ==> IsDigit(s[i])) ==> r == s
  {
    if |s| == 0 then ""
    else (if IsDigit(s[0]) then [s[0]] else "") + Digits(s[1..])
  }

  /** A single character survives exactly when it is a digit; with
      `DigitsAppend` this fixes the filter on every string. */
  lemma DigitsSingle(c: char)
    ensures Digits([c]) == if IsDigit(c) then [c] else []
  {
    assert [c][1..] == [];
  }

  /** Every digit of the input is kept, as often as it occurs. */
  lemma {:induction false} DigitsKeepsDigits(s: string)
    ensures forall c :: IsDigit(c) ==> multiset(Digits(s))[c] == multiset(s)[c]
  {
    if |s| > 0 {
      assert s == [s[0]] + s[1..];
      DigitsKeepsDigits(s[1..]);
    }
  }

  lemma DigitsAppend(a: string, b: string)
    ensures Digits(a + b) == Digits(a) + Digits(b)
  {
    if |a| == 0 {
      assert a + b == b;
    } else {
      assert (a + b)[1..] == a[1..] + b;
      DigitsAppend(a[1..], b);
    }
  }

  /** `sub` occurs somewhere in `s` (`String.prototype.includes`). */
  predicate Contains(s: string, sub: string) {
    exists i :: 0 <= i <= |s| - |sub| && InfixAt(sub, s, i)
  }

  /** Leading whitespace removed (`str.lstrip()`). */
  function TrimStart(s: string): (r: string)
    ensures |r| <= |s| && r == s[|s| - |r|..]
    ensures |r| == 0 || !IsSpace(r[0])
    ensures forall i :: 0 <= i < |s| - |r| ==> IsSpace(s[i])
  {
    if |s| > 0 && IsSpace(s[0]) then TrimStart(s[1..]) else s
  }

  /** Trailing whitespace removed (`str.rstrip()`). */
  function TrimEnd(s: string): (r: string)
    ensures |r| <= |s| && r == s[..|r|]
    ensures |r| == 0 || !IsSpace(r[|r| - 1])
    ensures forall i :: |r| <= i < |s| ==> IsSpace(s[i])
  {
    if |s| > 0 && IsSpace(s[|s| - 1]) then TrimEnd(s[..|s| - 1]) else s
  }

  /** `r` occurs in `s` starting at index `i`. */
  predicate InfixAt(r: string, s: string, i: int) {
    0 <= i <= |s| - |r| && r == s[i..i + |r|]
  }

  /** `r` is `s` with some surrounding whitespace cut: it occurs at `i`
      and only whitespace lies before and after it. */
  predicate Trimmed(r: string, s: string, i: int) {
    && InfixAt(r, s, i)
    && (forall j :: 0 <= j < i ==> IsSpace(s[j]))
    && (forall j :: i + |r| <= j < |s| ==> IsSpace(s[j]))
  }

  /** No whitespace at either end. */
  predicate Stripped(s: string) {
    |s| == 0 || (!IsSpace(s[0]) && !IsSpace(s[|s| - 1]))
  }

  /** `str.strip()`: the input with its surrounding whitespace, and only
      that, removed. */
  function Strip(s: string): (r: string)
    ensures Stripped(r)
    ensures exists i :: Trimmed(r, s, i)
  {
    TrimBothTrimmed(s);
    TrimEnd(TrimStart(s))
  }

  /** Trimming the start and then the end cuts only surrounding
      whitespace, and the text kept starts where the leading run ends. */
  lemma TrimBothTrimmed(s: string)
    ensures Trimmed(TrimEnd(TrimStart(s)), s, |s| - |TrimStart(s)|)
  {
    var t := TrimStart(s);
    TrimmedOfParts(s, t, TrimEnd(t), |s| - |t|);
  }

  /** Cutting a leading run of whitespace, then a trailing one, leaves
      a trimmed infix. */
  lemma TrimmedOfParts(s: string, t: string, r: string, k: int)
    requires 0 <= k <= |s| && t == s[k..] && |r| <= |t| && r == t[..|r|]
    requires forall j :: 0 <= j < k ==> IsSpace(s[j])
    requires forall j :: |r| <= j < |t| ==> IsSpace(t[j])
    ensures Trimmed(r, s, k)
  {
    assert s[k..][..|r|] == s[k..k + |r|];
    forall j | k + |r| <= j < |s|
      ensures IsSpace(s[j])
    {
      assert s[j] == t[j - k];
    }
  }

  /** Two unpadded, non-empty infixes that only whitespace surrounds
      start and end at the same places. */
  lemma TrimmedAlign(r: string, t: string, s: string, i: int, k: int)
    requires Stripped(r) && Trimmed(r, s, i) && r != []
    requires Stripped(t) && Trimmed(t, s, k) && t != []
    ensures i == k && |r| == |t|
  {
    assert s[i] == r[0] && s[k] == t[0];
    assert s[i + |r| - 1] == r[|r| - 1] && s[k + |t| - 1] == t[|t| - 1];
  }

  /** The contract of `Strip` determines it: any unpadded infix that
      only whitespace surrounds is the strip. */
  lemma StripUnique(r: string, s: string, i: int)
    requires Stripped(r) && Trimmed(r, s, i)
    ensures r == Strip(s)
  {
    var t := Strip(s);
    var k :| Trimmed(t, s, k);
    if r != [] && t != [] {
      TrimmedAlign(r, t, s, i, k);
    }
  }

  /** A string without surrounding whitespace is its own strip. */
  lemma StripFixed(s: string)
    requires Stripped(s)
    ensures Strip(s) == s
  {
  }
}

=== FILE: formatters.dfy ===
/** The display formatters that are pure string functions: UK phone
    numbers, addresses, status badges and the relative-time wording. */
module Formatters {
  import opened Base
  import opened Chars

  const NotAvailable := "N/A"

  // ---------------------------------------------------------------------
  // Phone numbers

  /** Eleven digits starting with the UK country code. */
  predicate IsInternationalUk(d: string) { |d| == 11 && d[..2] == "44" }

  /** Ten digits starting with the trunk prefix `0`. */
  predicate IsNationalUk(d: string) { |d| == 10 && d[0] == '0' }

  /** `formatPhoneNumber`. */
  function FormatPhoneNumber(phone: string): (r: string)
    ensures phone == "" ==> r == NotAvailable
    ensures phone != "" && IsInternationalUk(Digits(phone)) ==>
      |r| == 15 && r[..4] == "+44 " && r[8] == ' ' && r[12] == ' ' && Digits(r) == Digits(phone)
    ensures phone != "" && IsNationalUk(Digits(phone)) ==>
      |r| == 12 && r[4] == ' ' && r[8] == ' ' && Digits(r) == Digits(phone)
    ensures phone != "" && !IsInternationalUk(Digits(phone)) && !IsNationalUk(Digits(phone)) ==> r == phone
  {
    if phone == "" then NotAvailable
    else
      var d := Digits(phone);
      if IsInternationalUk(d) then
        var r := "+44 " + d[2..6] + " " + d[6..9] + " " + d[9..];
        DigitsOfInternational(d);
        r
      else if IsNationalUk(d) then
        var r := d[..4] + " " + d[4..7] + " " + d[7..];
        DigitsOfNational(d);
        r
      else phone
  }

  lemma DigitsOfInternational(d: string)
    requires IsInternationalUk(d) && forall i :: 0 <= i < |d| ==> IsDigit(d[i])
    ensures Digits("+44 " + d[2..6] + " " + d[6..9] + " " + d[9..]) == d
  {
    assert Digits("+44 ") == "44";
    DigitsOfGroups("+44 ", d[2..6], d[6..9], d[9..]);
    assert "44" + d[2..6] + d[6..9] + d[9..] == d;
  }

  lemma DigitsOfNational(d: string)
    requires IsNationalUk(d) && forall i :: 0 <= i < |d| ==> IsDigit(d[i])
    ensures Digits(d[..4] + " " + d[4..7] + " " + d[7..]) == d
  {
    DigitsOfGroups("", d[..4], d[4..7], d[7..]);
    assert "" + d[..4] == d[..4];
    assert d[..4] + d[4..7] + d[7..] == d;
  }

  /** Three digit groups laid out after a prefix, separated by spaces,
      give back the prefix's digits and the groups. */
  lemma DigitsOfGroups(prefix: string, a: string, b: string, c: string)
    requires forall i :: 0 <= i < |a| ==> IsDigit(a[i])
    requires forall i :: 0 <= i < |b| ==> IsDigit(b[i])
    requires forall i :: 0 <= i < |c| ==> IsDigit(c[i])
    ensures Digits(prefix + a + " " + b + " " + c) == Digits(prefix) + a + b + c
  {
    DigitsThenGroup(prefix, a);
    DigitsThenSpace(prefix + a);
    DigitsThenGroup(prefix + a + " ", b);
    DigitsThenSpace(prefix + a + " " + b);
    DigitsThenGroup(prefix + a + " " + b + " ", c);
  }

  lemma DigitsThenGroup(s: string, g: string)
    requires forall i :: 0 <= i < |g| ==> IsDigit(g[i])
    ensures Digits(s + g) == Digits(s) + g
  {
    DigitsAppend(s, g);
  }

  lemma DigitsThenSpace(s: string)
    ensures Digits(s + " ") == Digits(s)
  {
    DigitsAppend(s, " ");
    assert Digits(" ") == "";
  }

  /** Formatting a formatted number changes nothing. */
  lemma FormatPhoneIdempotent(phone: string)
    ensures FormatPhoneNumber(FormatPhoneNumber(phone)) == FormatPhoneNumber(phone)
  {
    if phone == "" {
      assert Digits(NotAvailable) == "";
    }
  }

  // ---------------------------------------------------------------------
  // Addresses

  /** The `address` argument: missing, a string, or an object whose
      missing fields are empty strings (both are falsy). */
  datatype Address = Missing | Text(text: string) | Fields(street: string, city: string, postcode: string, country: string)

  /** `parts.join(', ')`. */
  function Join(parts: seq<string>): (r: string)
  {
    if |parts| == 0 then ""
    else if |parts| == 1 then parts[0]
    else parts[0] + ", " + Join(parts[1..])
  }

  /** The non-empty strings of `xs`, in order (`filter(Boolean)`). */
  function NonEmpty(xs: seq<string>): (r: seq<string>)
    ensures |r| <= |xs|
    ensures forall p :: p in r <==> p in xs && p != ""
  {
    if xs == [] then []
    else (if xs[0] != "" then [xs[0]] else []) + NonEmpty(xs[1..])
  }

  /** The present (truthy) fields, in order. */
  function PresentParts(street: string, city: string, postcode: string, country: string): (r: seq<string>)
    ensures r == NonEmpty([street, city, postcode, country])
    ensures forall i :: 0 <= i < |r| ==> r[i] != ""
    ensures forall p :: p in r <==> p != "" && (p == street || p == city || p == postcode || p == country)
    ensures |r| <= 4
    ensures street != "" ==> r[0] == street
  {
    NonEmptyOfFour(street, city, postcode, country);
    (if street != "" then [street] else [])
      + (if city != "" then [city] else [])
      + (if postcode != "" then [postcode] else [])
      + (if country != "" then [country] else [])
  }

  /** Filtering four fields keeps each non-empty one in its place. */
  lemma NonEmptyOfFour(a: string, b: string, c: string, d: string)
    ensures NonEmpty([a, b, c, d])
      == (if a != "" then [a] else []) + (if b != "" then [b] else [])
       + (if c != "" then [c] else []) + (if d != "" then [d] else [])
  {
    assert [d][1..] == [] && [c, d][1..] == [d];
    assert [b, c, d][1..] == [c, d] && [a, b, c, d][1..] == [b, c, d];
    var nd := NonEmpty([d]);
    assert nd == if d != "" then [d] else [];
    var ncd := NonEmpty([c, d]);
    assert ncd == (if c != "" then [c] else []) + nd;
    var nbcd := NonEmpty([b, c, d]);
    assert nbcd == (if b != "" then [b] else []) + ncd;
    assert NonEmpty([a, b, c, d]) == (if a != "" then [a] else []) + nbcd;
  }

  /** `formatAddress`. */
  function FormatAddress(a: Address): (r: string)
    ensures a.Missing? || a == Text("") ==> r == NotAvailable
    ensures a.Text? && a.text != "" ==> r == a.text
    ensures a.Fields? ==> r == Join(PresentParts(a.street, a.city, a.postcode, a.country))
  {
    match a
    case Missing => NotAvailable
    case Text(s) => if s == "" then NotAvailable else s
    case Fields(st, ci, pc, co) => Join(PresentParts(st, ci, pc, co))
  }

  /** Splitting a joined address back apart at each `, `. */
  function SplitAddress(s: string): seq<string>
    decreases |s|
  {
    if ',' !in s then [s]
    else
      var k := FirstIndex(s, ',');
      [s[..k]] + SplitAddress(s[if k + 2 <= |s| then k + 2 else |s|..])
  }

  /** When no present field contains a comma, the formatted address splits
      back into exactly the present fields, in order. */
  lemma {:induction false} SplitJoin(parts: seq<string>)
    requires |parts| >= 1
    requires forall i :: 0 <= i < |parts| ==> ',' !in parts[i]
    ensures SplitAddress(Join(parts)) == parts
    decreases |parts|
  {
    if |parts| > 1 {
      var head, rest := parts[0], Join(parts[1..]);
      var s := head + ", " + rest;
      assert s[|head|] == ',';
      assert ',' in s;
      assert s[..|head|] == head;
      var k := FirstIndex(s, ',');
      // the first comma is the one the join put after `head`
      assert k == |head| by {
        assert ',' !in parts[0];
        assert forall i :: 0 <= i < |head| ==> s[i] == head[i];
        assert s[|head|] in s[..k] || k <= |head|;
      }
      assert s[|head| + 2..] == rest;
      SplitJoin(parts[1..]);
      assert parts == [head] + parts[1..];
    }
  }

  /** The object form of `formatAddress` round-trips through
      `SplitAddress` whenever at least one field is present and none holds
      a comma. */
  lemma FormatAddressSplits(a: Address)
    requires a.Fields?
    requires ',' !in a.street && ',' !in a.city && ',' !in a.postcode && ',' !in a.country
    requires PresentParts(a.street, a.city, a.postcode, a.country) != []
    ensures SplitAddress(FormatAddress(a)) == PresentParts(a.street, a.city, a.postcode, a.country)
  {
    var parts := PresentParts(a.street, a.city, a.postcode, a.country);
    assert forall i :: 0 <= i < |parts| ==> parts[i] in {a.street, a.city, a.postcode, a.country};
    SplitJoin(parts);
  }

  // ---------------------------------------------------------------------
  // Status badges

  /** A badge; `title` is the source's `label` field (`label` is reserved
      in Dafny). */
  datatype StatusConfig = StatusConfig(title: string, color: string, bgColor: string, textColor: string)

  /** The statuses with a dedicated badge. */
  const KnownStatuses: set<string> :=
    {"active", "pending", "inactive", "verified", "rejected", "draft", "published", "archived"}

  /** The badge of colour family `color`. */
  function Badge(title: string, color: string): StatusConfig {
    StatusConfig(title, color, "bg-" + color + "-100", "text-" + color + "-800")
  }

  /** The first letter upper-cased. */
  function Capitalize(s: string): string {
    if s == "" then s else [UpperChar(s[0])] + s[1..]
  }

  /** The `label` column of the `configs` table, or the status itself
      for a status the table lacks. */
  function StatusTitle(status: string): (t: string)
    ensures status in KnownStatuses <==> t != status
  {
    match status
    case "active" => "Active"
    case "pending" => "Pending"
    case "inactive" => "Inactive"
    case "verified" => "Verified"
    case "rejected" => "Rejected"
    case "draft" => "Draft"
    case "published" => "Published"
    case "archived" => "Archived"
    case _ => status
  }

  /** Every label in the table is its status with the first letter
      upper-cased. */
  lemma StatusTitleCapitalizes(status: string)
    ensures status in KnownStatuses ==> StatusTitle(status) == Capitalize(status)
  {
    if status in {"active", "pending", "inactive", "verified"} {
      LabelsActiveToVerified();
    } else {
      LabelsRejectedToArchived();
    }
  }

  lemma LabelsActiveToVerified()
    ensures Capitalize("active") == "Active" && Capitalize("pending") == "Pending"
    ensures Capitalize("inactive") == "Inactive" && Capitalize("verified") == "Verified"
  {
  }

  lemma LabelsRejectedToArchived()
    ensures Capitalize("rejected") == "Rejected" && Capitalize("draft") == "Draft"
    ensures Capitalize("published") == "Published" && Capitalize("archived") == "Archived"
  {
  }

  /** The `color` column of the `configs` table, or grey for a status
      the table lacks. */
  function StatusColor(status: string): (c: string)
    ensures c in {"success", "warning", "gray", "error"}
    ensures status !in KnownStatuses ==> c == "gray"
    ensures c == "success" <==> status in {"active", "verified", "published"}
    ensures c == "warning" <==> status == "pending"
    ensures c == "error" <==> status == "rejected"
  {
    match status
    case "active" => "success"
    case "pending" => "warning"
    case "verified" => "success"
    case "rejected" => "error"
    case "published" => "success"
    case _ => "gray"
  }

  /** `getStatusConfig`: `configs[status]`, or the grey badge labelled
      with the status itself. */
  function GetStatusConfig(status: string): (r: StatusConfig)
    ensures r.bgColor == "bg-" + r.color + "-100" && r.textColor == "text-" + r.color + "-800"
    ensures r.color in {"success", "warning", "gray", "error"}
    ensures status in KnownStatuses ==> r.title == Capitalize(status)
    ensures status !in KnownStatuses ==> r.title == status && r.color == "gray"
    ensures status in KnownStatuses <==> r.title != status
    ensures r.color == "success" <==> status in {"active", "verified", "published"}
    ensures r.color == "warning" <==> status == "pending"
    ensures r.color == "error" <==> status == "rejected"
  {
    StatusTitleCapitalizes(status);
    Badge(StatusTitle(status), StatusColor(status))
  }

  predicate AllLower(s: string) { forall i :: 0 <= i < |s| ==> IsLower(s[i]) }

  /** Lower-casing undoes capitalising a lower-case word. */
  lemma LowerOfCapitalize(s: string)
    requires AllLower(s)
    ensures ToLower(Capitalize(s)) == s
  {
    if s != "" {
      var t := Capitalize(s);
      assert forall i :: 1 <= i < |t| ==> t[i] == s[i];
    }
  }

  /** A known status's label reads back as the status. */
  lemma StatusLabelReadsBack(status: string)
    requires status in KnownStatuses
    ensures ToLower(GetStatusConfig(status).title) == status
  {
    assert AllLower(status);
    LowerOfCapitalize(status);
  }

  // ---------------------------------------------------------------------
  // Relative time

  /** What `formatRelativeTime` says for an age of `diffInSeconds`:
      "Just now", a count of one unit, or the absolute date. */
  datatype Relative = JustNow | Ago(count: int, unit: string) | AbsoluteDate

  function UnitSeconds(unit: string): int {
    match unit
    case "minute" => 60
    case "hour" => 3600
    case _ => 86400
  }

  /** How many of a unit make the next one (30 days make the cut-off). */
  function UnitLimit(unit: string): int {
    match unit
    case "minute" => 60
    case "hour" => 24
    case _ => 30
  }

  function RelativeBucket(diffInSeconds: int): (r: Relative)
    ensures r == JustNow <==> diffInSeconds < 60
    ensures r == AbsoluteDate <==> diffInSeconds >= 2592000
    ensures r.Ago? ==> r.unit in {"minute", "hour", "day"}
    // the count is the floor of the age in that unit ...
    ensures r.Ago? ==>
      r.count * UnitSeconds(r.unit) <= diffInSeconds < (r.count + 1) * UnitSeconds(r.unit)
    // ... and the largest unit that gives at least one
    ensures r.Ago? ==> 1 <= r.count < UnitLimit(r.unit)
  {
    if diffInSeconds < 60 then JustNow
    else if diffInSeconds < 3600 then Ago(diffInSeconds / 60, "minute")
    else if diffInSeconds < 86400 then Ago(diffInSeconds / 3600, "hour")
    else if diffInSeconds < 2592000 then Ago(diffInSeconds / 86400, "day")
    else AbsoluteDate
  }

  /** The decimal numeral of a natural number. */
  function NatToString(n: nat): (r: string)
    ensures |r| >= 1 && forall i :: 0 <= i < |r| ==> IsDigit(r[i])
  {
    if n < 10 then [(48 + n) as char] else NatToString(n / 10) + [(48 + n % 10) as char]
  }

  /** The value of a decimal numeral. */
  function DecimalValue(s: string): nat
    requires forall i :: 0 <= i < |s| ==> IsDigit(s[i])
  {
    if s == [] then 0
    else
      var last := s[|s| - 1];
      assert IsDigit(last);
      DecimalValue(s[..|s| - 1]) * 10 + (last as int - '0' as int)
  }

  lemma {:induction false} NatToStringValue(n: nat)
    ensures DecimalValue(NatToString(n)) == n
  {
    if n >= 10 {
      var s := NatToString(n / 10) + [(48 + n % 10) as char];
      assert s[..|s| - 1] == NatToString(n / 10);
      NatToStringValue(n / 10);
    }
  }

  /** `formatRelativeTime`, with the absolute-date wording supplied. */
  function RelativeText(diffInSeconds: int, dateText: string): (r: string)
    ensures diffInSeconds < 60 ==> r == "Just now"
    ensures diffInSeconds >= 2592000 ==> r == dateText
  {
    match RelativeBucket(diffInSeconds)
    case JustNow => "Just now"
    case Ago(n, unit) => NatToString(n) + " " + unit + (if n > 1 then "s" else "") + " ago"
    case AbsoluteDate => dateText
  }

  /** A counted age reads back as its count, its unit, and a plural `s`
      exactly when the count exceeds one. */
  lemma RelativeTextReadsBack(diffInSeconds: int, dateText: string)
    requires 60 <= diffInSeconds < 2592000
    ensures var b := RelativeBucket(diffInSeconds);
      var numeral := NatToString(b.count);
      var r := RelativeText(diffInSeconds, dateText);
      && r[..|numeral|] == numeral
      && DecimalValue(numeral) == b.count
      && r[|numeral|..] == " " + b.unit + (if b.count > 1 then "s" else "") + " ago"
  {
    var b := RelativeBucket(diffInSeconds);
    var numeral := NatToString(b.count);
    var plural := if b.count > 1 then "s" else "";
    var tail := " " + b.unit + plural + " ago";
    assert RelativeText(diffInSeconds, dateText) == numeral + tail by {
      assert numeral + " " + b.unit + plural + " ago" == numeral + tail;
    }
    assert (numeral + tail)[..|numeral|] == numeral;
    assert (numeral + tail)[|numeral|..] == tail;
    NatToStringValue(b.count);
  }
}

=== FILE: gallery.dfy ===
/** The image gallery's index navigation: the main slide (previous/next
    with wrap-around, thumbnails, autoplay) and the full-screen modal
    (clamping navigation and the keyboard handler). */
module Gallery {
  import opened Base

  /** `goToNext`'s step on an index among `n` images. */
  function Next(i: int, n: int): (r: int)
    ensures 0 <= i < n ==> 0 <= r < n && r == (i + 1) % n
  {
    if i == n - 1 then 0 else i + 1
  }

  /** `goToPrevious`'s step. */
  function Prev(i: int, n: int): (r: int)
    ensures 0 <= i < n ==> 0 <= r < n && r == (i - 1) % n
  {
    if i == 0 then n - 1 else i - 1
  }

  /** Previous undoes next and next undoes previous. */
  lemma PrevNextInverse(i: int, n: int)
    requires 0 <= i < n
    ensures Prev(Next(i, n), n) == i
    ensures Next(Prev(i, n), n) == i
  {
  }

  /** With a single image both steps stay on it. */
  lemma SingleImage()
    ensures Next(0, 1) == 0 && Prev(0, 1) == 0
  {
  }

  /** `k` presses of next. */
  function NextTimes(i: int, n: int, k: nat): int
  {
    if k == 0 then i else Next(NextTimes(i, n, k - 1), n)
  }

  /** `k <= n` presses of next advance by `k`, wrapping once past the end. */
  lemma {:induction false} NextTimesWraps(i: int, n: int, k: nat)
    requires 0 <= i < n && k <= n
    ensures NextTimes(i, n, k) == if i + k < n then i + k else i + k - n
  {
    if k > 0 {
      NextTimesWraps(i, n, k - 1);
    }
  }

  /** `n` presses of next come back to the starting image. */
  lemma NextCycle(i: int, n: int)
    requires 0 <= i < n
    ensures NextTimes(i, n, n) == i
  {
    NextTimesWraps(i, n, n);
  }

  /** `navigateImage`'s clamping: below 0 goes to the last image, past the
      end to the first, anything in range is kept. */
  function Navigate(index: int, n: int): (r: int)
    requires n >= 1
    ensures 0 <= r < n
    ensures index < 0 ==> r == n - 1
    ensures index >= n ==> r == 0
    ensures 0 <= index < n ==> r == index
  {
    if index < 0 then n - 1 else if index >= n then 0 else index
  }

  /** The modal's arrows (navigate to the index one off) move exactly like
      the main slide's previous and next buttons. */
  lemma ModalArrowsWrapLikeSlides(i: int, n: int)
    requires 0 <= i < n
    ensures Navigate(i + 1, n) == Next(i, n)
    ensures Navigate(i - 1, n) == Prev(i, n)
  {
  }

  /** The autoplay interval's step: none is scheduled unless autoplay is on
      and there are at least two images. */
  function AutoplayStep(autoPlay: bool, n: int, i: int): (r: Option<int>)
    ensures r.None? <==> !autoPlay || n <= 1
    ensures r.Some? ==> r.value == Next(i, n)
  {
    if !autoPlay || n <= 1 then None else Some(if i == n - 1 then 0 else i + 1)
  }

  // ---------------------------------------------------------------------
  // The component's state

  /** The rendered gallery of `count >= 1` images (an empty list renders a
      placeholder with no handlers). */
  datatype State = State(count: int, current: int, modalOpen: bool, modalIndex: int)

  predicate Valid(g: State) {
    g.count >= 1 && 0 <= g.current < g.count && 0 <= g.modalIndex < g.count
  }

  function GoToPrevious(g: State): (r: State)
    ensures Valid(g) ==> Valid(r)
    ensures r == g.(current := Prev(g.current, g.count))
  {
    g.(current := if g.current == 0 then g.count - 1 else g.current - 1)
  }

  function GoToNext(g: State): (r: State)
    ensures Valid(g) ==> Valid(r)
    ensures r == g.(current := Next(g.current, g.count))
  {
    g.(current := if g.current == g.count - 1 then 0 else g.current + 1)
  }

  /** A thumbnail or indicator click: the index is taken as given; the
      buttons only ever pass indices of existing images. */
  function GoToSlide(g: State, index: int): (r: State)
    ensures r.current == index && r.(current := g.current) == g
    ensures Valid(g) && 0 <= index < g.count ==> Valid(r)
  {
    g.(current := index)
  }

  function OpenModal(g: State, index: int): (r: State)
    ensures r.modalOpen && r.modalIndex == index && r.current == g.current
    ensures Valid(g) && 0 <= index < g.count ==> Valid(r)
  {
    g.(modalIndex := index, modalOpen := true)
  }

  function NavigateImage(g: State, index: int): (r: State)
    requires g.count >= 1
    ensures 0 <= r.modalIndex < r.count
    ensures Valid(g) ==> Valid(r)
    ensures r == g.(modalIndex := Navigate(index, g.count))
  {
    g.(modalIndex := if index < 0 then g.count - 1 else if index >= g.count then 0 else index)
  }

  datatype Key = ArrowLeft | ArrowRight | Escape | OtherKey

  /** The keyboard handler: active only while the modal is open. */
  function KeyPress(g: State, key: Key): (r: State)
    requires g.count >= 1
    ensures !g.modalOpen ==> r == g
    ensures Valid(g) ==> Valid(r)
    ensures Valid(g) && g.modalOpen && key == ArrowRight ==> r.modalIndex == Next(g.modalIndex, g.count)
    ensures Valid(g) && g.modalOpen && key == ArrowLeft ==> r.modalIndex == Prev(g.modalIndex, g.count)
    ensures g.modalOpen && key == Escape ==> !r.modalOpen && r.modalIndex == g.modalIndex
    ensures r.current == g.current
  {
    if !g.modalOpen then g
    else
      match key
      case ArrowLeft => NavigateImage(g, g.modalIndex - 1)
      case ArrowRight => NavigateImage(g, g.modalIndex + 1)
      case Escape => g.(modalOpen := false)
      case OtherKey => g
  }
}

=== FILE: guards.dfy ===
/** The route guards: pure decisions from the session, an access
    requirement and the requested path to a loading placeholder, a
    redirect, or rendering the guarded children. */
module Guards {
  import opened Base
  import opened Auth
  import opened Chars

  /** `Navigate to=target state={{from}}` carries `from` only for the
      redirect to the login page. */
  datatype Decision = Placeholder | Redirect(target: string, from: Option<string>) | Render

  const LoginRoute := "/auth/login"
  const DashboardRoute := "/portal/dashboard"
  const UpgradeRoute := "/portal/upgrade"
  const VerifyEmailRoute := "/portal/verify-email"

  // ---------------------------------------------------------------------
  // What the guards read from the user record

  /** `user?.user_type === 'admin'`. */
  predicate IsAdmin(user: Option<Object>) {
    Field(user, "user_type") == Some(Str("admin"))
  }

  /** `user?.is_verified`, as a truth value. */
  predicate IsVerified(user: Option<Object>) {
    var v := Field(user, "is_verified");
    v.Some? && Truthy(v.value)
  }

  /** `user?.features?.includes(feature)`: array membership for a list,
      a substring test for a string. */
  predicate HasFeature(user: Option<Object>, feature: string) {
    var v := Field(user, "features");
    v.Some? &&
      match v.value
      case List(items) => Str(feature) in items
      case Str(text) => Contains(text, feature)
      case _ => false
  }

  /** A string of features grants every feature named inside it, as
      `String.prototype.includes` matches substrings. */
  lemma FeatureStringMatchesSubstrings(s: Session, path: string)
    requires !s.isLoading && s.isAuthenticated && !IsAdmin(s.user)
    requires Field(s.user, "features") == Some(Str("premium_reports"))
    ensures FeatureRoute(s, "reports", DashboardRoute, path) == Render
    ensures FeatureRoute(s, "premium_reports_pro", DashboardRoute, path) == Redirect(DashboardRoute, None)
  {
    assert InfixAt("reports", "premium_reports", 8);
  }

  /** `allowedRoles.includes(user?.user_type)`. */
  predicate RoleAllowed(allowedRoles: seq<string>, user: Option<Object>) {
    var v := Field(user, "user_type");
    v.Some? && v.value.Str? && v.value.s in allowedRoles
  }

  /** `planHierarchy[plan]`: the four tiers in order, 0 for anything else. */
  function PlanLevel(plan: string): (r: nat)
    ensures r <= 4
    ensures r == 0 <==> plan !in {"basic", "premium", "professional", "enterprise"}
  {
    match plan
    case "basic" => 1
    case "premium" => 2
    case "professional" => 3
    case "enterprise" => 4
    case _ => 0
  }

  /** `planHierarchy[user?.subscription_plan] || 0`. */
  function UserPlanLevel(user: Option<Object>): nat
  {
    var v := Field(user, "subscription_plan");
    if v.Some? && v.value.Str? then PlanLevel(v.value.s) else 0
  }

  /** `planHierarchy[requiredPlan] || 1`: an unknown requirement is the
      lowest tier. */
  function RequiredPlanLevel(plan: string): (r: nat)
    ensures 1 <= r <= 4
  {
    if PlanLevel(plan) == 0 then 1 else PlanLevel(plan)
  }

  /** The plan check fails exactly when the user's tier is below the
      required one. */
  predicate PlanTooLow(user: Option<Object>, requiredPlan: string) {
    UserPlanLevel(user) < RequiredPlanLevel(requiredPlan)
  }

  /** The tiers are strictly ordered basic < premium < professional <
      enterprise; a user with no or an unknown plan fails every plan
      requirement, and a known plan meets exactly the tiers up to its own. */
  lemma PlanOrdering(user: Option<Object>, requiredPlan: string)
    ensures PlanLevel("basic") < PlanLevel("premium") < PlanLevel("professional") < PlanLevel("enterprise")
    ensures UserPlanLevel(user) == 0 ==> PlanTooLow(user, requiredPlan)
    ensures PlanLevel(requiredPlan) == 0 ==> (PlanTooLow(user, requiredPlan) <==> UserPlanLevel(user) == 0)
  {
  }

  // ---------------------------------------------------------------------
  // The single-purpose guards

  /** `PrivateRoute`. */
  function PrivateRoute(s: Session, adminOnly: bool, redirectTo: string, path: string): (d: Decision)
    ensures s.isLoading ==> d == Placeholder
    ensures !s.isLoading && !s.isAuthenticated ==> d == Redirect(redirectTo, Some(path))
    ensures !s.isLoading && s.isAuthenticated && adminOnly && !IsAdmin(s.user) ==>
      d == Redirect(DashboardRoute, None)
    ensures d == Render <==> !s.isLoading && s.isAuthenticated && (adminOnly ==> IsAdmin(s.user))
  {
    if s.isLoading then Placeholder
    else if !s.isAuthenticated then Redirect(redirectTo, Some(path))
    else if adminOnly && !IsAdmin(s.user) then Redirect(DashboardRoute, None)
    else Render
  }

  /** `RoleBasedRoute`: an empty allow-list admits every role. */
  function RoleBasedRoute(s: Session, allowedRoles: seq<string>, fallbackRoute: string, path: string): (d: Decision)
    ensures s.isLoading ==> d == Placeholder
    ensures !s.isLoading && !s.isAuthenticated ==> d == Redirect(LoginRoute, Some(path))
    ensures !s.isLoading && s.isAuthenticated && |allowedRoles| > 0 && !RoleAllowed(allowedRoles, s.user) ==>
      d == Redirect(fallbackRoute, None)
    ensures d == Render <==>
      !s.isLoading && s.isAuthenticated && (|allowedRoles| == 0 || RoleAllowed(allowedRoles, s.user))
  {
    if s.isLoading then Placeholder
    else if !s.isAuthenticated then Redirect(LoginRoute, Some(path))
    else if |allowedRoles| > 0 && !RoleAllowed(allowedRoles, s.user) then Redirect(fallbackRoute, None)
    else Render
  }

  /** `FeatureRoute`: administrators pass every feature gate. */
  function FeatureRoute(s: Session, feature: string, fallbackRoute: string, path: string): (d: Decision)
    ensures s.isLoading ==> d == Placeholder
    ensures !s.isLoading && !s.isAuthenticated ==> d == Redirect(LoginRoute, Some(path))
    ensures d == Render <==>
      !s.isLoading && s.isAuthenticated && (HasFeature(s.user, feature) || IsAdmin(s.user))
    ensures d.Redirect? && s.isAuthenticated ==> d == Redirect(fallbackRoute, None)
  {
    if s.isLoading then Placeholder
    else if !s.isAuthenticated then Redirect(LoginRoute, Some(path))
    else if !(HasFeature(s.user, feature) || IsAdmin(s.user)) then Redirect(fallbackRoute, None)
    else Render
  }

  /** `SubscriptionRoute`. */
  function SubscriptionRoute(s: Session, requiredPlan: string, fallbackRoute: string, path: string): (d: Decision)
    ensures s.isLoading ==> d == Placeholder
    ensures !s.isLoading && !s.isAuthenticated ==> d == Redirect(LoginRoute, Some(path))
    ensures !s.isLoading && s.isAuthenticated ==>
      (d == Redirect(fallbackRoute, None) <==> UserPlanLevel(s.user) < RequiredPlanLevel(requiredPlan))
    ensures d == Render <==>
      !s.isLoading && s.isAuthenticated && UserPlanLevel(s.user) >= RequiredPlanLevel(requiredPlan)
  {
    if s.isLoading then Placeholder
    else if !s.isAuthenticated then Redirect(LoginRoute, Some(path))
    else if PlanTooLow(s.user, requiredPlan) then Redirect(fallbackRoute, None)
    else Render
  }

  /** `VerifiedRoute`. */
  function VerifiedRoute(s: Session, redirectTo: string, path: string): (d: Decision)
    ensures s.isLoading ==> d == Placeholder
    ensures !s.isLoading && !s.isAuthenticated ==> d == Redirect(LoginRoute, Some(path))
    ensures !s.isLoading && s.isAuthenticated && !IsVerified(s.user) ==> d == Redirect(redirectTo, None)
    ensures d == Render <==> !s.isLoading && s.isAuthenticated && IsVerified(s.user)
  {
    if s.isLoading then Placeholder
    else if !s.isAuthenticated then Redirect(LoginRoute, Some(path))
    else if !IsVerified(s.user) then Redirect(redirectTo, None)
    else Render
  }

  // ---------------------------------------------------------------------
  // The combined guard

  /** The props of `ProtectedRoute`; `requiredPlan` is `null` by default and
      an empty string is as falsy as `null`. */
  datatype Requirement = Requirement(
    requireAuth: bool,
    requireVerification: bool,
    allowedRoles: seq<string>,
    requiredFeatures: seq<string>,
    requiredPlan: Option<string>,
    adminOnly: bool)

  /** The default props: authentication and nothing else. */
  const AuthOnly := Requirement(true, false, [], [], None, false)

  /** The checks after authentication, in the order they are made. */
  datatype Check = Verification | AdminOnly | Roles | Features | Plan

  const CheckOrder := [Verification, AdminOnly, Roles, Features, Plan]

  /** Does the session pass `c` under requirement `req`? A check that is not
      requested passes. */
  predicate Passes(s: Session, req: Requirement, c: Check) {
    match c
    case Verification => !req.requireVerification || IsVerified(s.user)
    case AdminOnly => !req.adminOnly || IsAdmin(s.user)
    case Roles => |req.allowedRoles| == 0 || RoleAllowed(req.allowedRoles, s.user)
    case Features =>
      forall f :: f in req.requiredFeatures ==> HasFeature(s.user, f) || IsAdmin(s.user)
    case Plan =>
      !TruthyItem(req.requiredPlan) || !PlanTooLow(s.user, req.requiredPlan.value)
  }

  /** Where a failing check redirects to. */
  function Target(c: Check): string {
    match c
    case Verification => VerifyEmailRoute
    case AdminOnly => DashboardRoute
    case Roles => DashboardRoute
    case Features => DashboardRoute
    case Plan => UpgradeRoute
  }

  /** `ProtectedRoute`. */
  function ProtectedRoute(s: Session, req: Requirement, path: string): (d: Decision)
    ensures s.isLoading ==> d == Placeholder
    ensures !s.isLoading && req.requireAuth && !s.isAuthenticated ==> d == Redirect(LoginRoute, Some(path))
    ensures d.Redirect? && d.target != LoginRoute ==> d.from.None?
  {
    if s.isLoading then Placeholder
    else if req.requireAuth && !s.isAuthenticated then Redirect(LoginRoute, Some(path))
    else if req.requireVerification && !IsVerified(s.user) then Redirect(VerifyEmailRoute, None)
    else if req.adminOnly && !IsAdmin(s.user) then Redirect(DashboardRoute, None)
    else if |req.allowedRoles| > 0 && !RoleAllowed(req.allowedRoles, s.user) then Redirect(DashboardRoute, None)
    else if |req.requiredFeatures| > 0
         && !(forall f :: f in req.requiredFeatures ==> HasFeature(s.user, f) || IsAdmin(s.user))
    then Redirect(DashboardRoute, None)
    else if TruthyItem(req.requiredPlan) && PlanTooLow(s.user, req.requiredPlan.value)
    then Redirect(UpgradeRoute, None)
    else Render
  }

  /** The first check of `checks` that the session fails, if any. */
  function FirstFailing(s: Session, req: Requirement, checks: seq<Check>): (r: Option<Check>)
    ensures r.None? <==> forall i :: 0 <= i < |checks| ==> Passes(s, req, checks[i])
    ensures r.Some? ==> exists i :: (0 <= i < |checks| && checks[i] == r.value
      && !Passes(s, req, checks[i]) && forall j :: 0 <= j < i ==> Passes(s, req, checks[j]))
  {
    if |checks| == 0 then None
    else if !Passes(s, req, checks[0]) then Some(checks[0])
    else
      var r := FirstFailing(s, req, checks[1..]);
      assert r.Some? ==> exists i :: (0 <= i < |checks| && checks[i] == r.value
        && !Passes(s, req, checks[i]) && forall j :: 0 <= j < i ==> Passes(s, req, checks[j])) by {
        if r.Some? {
          var i :| 0 <= i < |checks[1..]| && checks[1..][i] == r.value
            && !Passes(s, req, checks[1..][i]) && forall j :: 0 <= j < i ==> Passes(s, req, checks[1..][j]);
          assert checks[i + 1] == r.value && !Passes(s, req, checks[i + 1]);
          assert forall j :: 0 <= j < i + 1 ==> Passes(s, req, checks[j]) by {
            forall j | 0 <= j < i + 1 ensures Passes(s, req, checks[j]) {
              if j > 0 { assert checks[j] == checks[1..][j - 1]; }
            }
          }
        }
      }
      r
  }

  /** The guard as one ordered checklist: loading, then authentication,
      then the redirect of the first failing check of `CheckOrder`. */
  function Checklist(s: Session, req: Requirement, path: string): Decision
  {
    if s.isLoading then Placeholder
    else if req.requireAuth && !s.isAuthenticated then Redirect(LoginRoute, Some(path))
    else match FirstFailing(s, req, CheckOrder)
      case None => Render
      case Some(c) => Redirect(Target(c), None)
  }

  /** Over `CheckOrder`, the first failing check is found in that order. */
  lemma FirstFailingInOrder(s: Session, req: Requirement)
    ensures FirstFailing(s, req, CheckOrder) ==
      if !Passes(s, req, Verification) then Some(Verification)
      else if !Passes(s, req, AdminOnly) then Some(AdminOnly)
      else if !Passes(s, req, Roles) then Some(Roles)
      else if !Passes(s, req, Features) then Some(Features)
      else if !Passes(s, req, Plan) then Some(Plan)
      else None
  {
    var c4 := [Plan];
    var c3 := [Features] + c4;
    var c2 := [Roles] + c3;
    var c1 := [AdminOnly] + c2;
    assert CheckOrder == [Verification] + c1;
    assert c1[1..] == c2 && c2[1..] == c3 && c3[1..] == c4 && c4[1..] == [];
    assert ([Verification] + c1)[1..] == c1;
    assert FirstFailing(s, req, c4) == (if Passes(s, req, Plan) then None else Some(Plan));
    assert FirstFailing(s, req, c3) == (if Passes(s, req, Features) then FirstFailing(s, req, c4) else Some(Features));
    assert FirstFailing(s, req, c2) == (if Passes(s, req, Roles) then FirstFailing(s, req, c3) else Some(Roles));
    assert FirstFailing(s, req, c1) == (if Passes(s, req, AdminOnly) then FirstFailing(s, req, c2) else Some(AdminOnly));
  }

  /** `ProtectedRoute` is the ordered checklist: the first failing check
      alone determines the redirect. */
  lemma ProtectedRouteIsChecklist(s: Session, req: Requirement, path: string)
    ensures ProtectedRoute(s, req, path) == Checklist(s, req, path)
  {
    FirstFailingInOrder(s, req);
  }

  /** The children render iff loading is over, authentication (when
      required) holds, and every check passes. */
  lemma ProtectedRouteRendersIff(s: Session, req: Requirement, path: string)
    ensures ProtectedRoute(s, req, path) == Render <==>
      !s.isLoading && (req.requireAuth ==> s.isAuthenticated)
      && forall c :: Passes(s, req, c)
  {
    ProtectedRouteIsChecklist(s, req, path);
    if FirstFailing(s, req, CheckOrder).None? {
      forall c: Check ensures Passes(s, req, c) {
        match c
        case Verification => assert CheckOrder[0] == c;
        case AdminOnly => assert CheckOrder[1] == c;
        case Roles => assert CheckOrder[2] == c;
        case Features => assert CheckOrder[3] == c;
        case Plan => assert CheckOrder[4] == c;
      }
    }
  }

  /** An unauthenticated session is sent to the login page, never to the
      dashboard or the upgrade page, whatever else the route requires. */
  lemma UnauthenticatedGoesToLogin(s: Session, req: Requirement, path: string)
    requires !s.isLoading && !s.isAuthenticated && req.requireAuth
    ensures ProtectedRoute(s, req, path) == Redirect(LoginRoute, Some(path))
    ensures ProtectedRoute(s, req, path).target !in {DashboardRoute, UpgradeRoute}
  {
  }

  /** With `requireAuth` off, a missing user still meets the later checks:
      it fails verification, admin-only and every non-empty role list. */
  lemma NoAuthNullUserStillChecked(s: Session, req: Requirement, path: string)
    requires !s.isLoading && !req.requireAuth && s.user.None?
    ensures req.requireVerification ==> ProtectedRoute(s, req, path) == Redirect(VerifyEmailRoute, None)
    ensures !req.requireVerification && (req.adminOnly || |req.allowedRoles| > 0) ==>
      ProtectedRoute(s, req, path) == Redirect(DashboardRoute, None)
  {
  }

  // ---------------------------------------------------------------------
  // Each single-purpose guard is the combined guard with one requirement

  lemma PrivateRouteIsProtectedRoute(s: Session, adminOnly: bool, path: string)
    ensures PrivateRoute(s, adminOnly, LoginRoute, path) == ProtectedRoute(s, AuthOnly.(adminOnly := adminOnly), path)
  {
  }

  lemma RoleBasedRouteIsProtectedRoute(s: Session, roles: seq<string>, path: string)
    ensures RoleBasedRoute(s, roles, DashboardRoute, path) == ProtectedRoute(s, AuthOnly.(allowedRoles := roles), path)
  {
  }

  lemma FeatureRouteIsProtectedRoute(s: Session, feature: string, path: string)
    ensures FeatureRoute(s, feature, DashboardRoute, path) == ProtectedRoute(s, AuthOnly.(requiredFeatures := [feature]), path)
  {
  }

  /** Except for the empty plan name, which the combined guard ignores and
      `SubscriptionRoute` reads as the lowest tier. */
  lemma SubscriptionRouteIsProtectedRoute(s: Session, plan: string, path: string)
    requires plan != ""
    ensures SubscriptionRoute(s, plan, UpgradeRoute, path) == ProtectedRoute(s, AuthOnly.(requiredPlan := Some(plan)), path)
  {
  }

  lemma VerifiedRouteIsProtectedRoute(s: Session, path: string)
    ensures VerifiedRoute(s, VerifyEmailRoute, path) == ProtectedRoute(s, AuthOnly.(requireVerification := true), path)
  {
  }

  /** The scenario of a fetched, unverified investor: once start-up
      succeeds, the verified-only route redirects to the verify-email page. */
  lemma UnverifiedInvestorAfterStartup(c: Client, path: string)
    requires TruthyItem(GetItem(c.storage, "token"))
    ensures var user := map["id" := Num(1), "role" := Str("investor"), "is_verified" := Bool(false)];
      VerifiedRoute(InitializeAuth(c, Ok(user)).session, VerifyEmailRoute, path)
      == Redirect(VerifyEmailRoute, None)
  {
  }

  /** The scenario of a basic subscriber asking for a premium route. */
  lemma BasicUserNeedsUpgrade(s: Session, path: string)
    requires !s.isLoading && s.isAuthenticated
    requires Field(s.user, "subscription_plan") == Some(Str("basic")) && !IsAdmin(s.user)
    ensures ProtectedRoute(s, AuthOnly.(requiredPlan := Some("premium")), path) == Redirect(UpgradeRoute, None)
    ensures SubscriptionRoute(s, "premium", UpgradeRoute, path) == Redirect(UpgradeRoute, None)
  {
  }
}

=== FILE: locale.dfy ===
/** The locale store: the current language code, the right-to-left flag
    derived from it, the persisted `language` entry and the document's
    `dir`/`lang` attributes. */
module Locale {
  import opened Base

  const LanguageKey := "language"
  const DefaultLanguage := "en"

  datatype LocaleState = LocaleState(currentLanguage: string, isRTL: bool)

  /** The root element's `dir` and `lang` attributes. */
  datatype Document = Document(dir: string, lang: string)

  datatype Page = Page(locale: LocaleState, storage: Storage, document: Document)

  /** Right-to-left exactly for Arabic. */
  predicate RtlConsistent(l: LocaleState) {
    l.isRTL == (l.currentLanguage == "ar")
  }

  /** The state before the start-up effect runs. */
  const InitialLocale := LocaleState(DefaultLanguage, false)

  /** The start-up effect: the persisted language, or `en` when it is
      missing or empty. The effect itself writes no storage and leaves the
      document alone; the storage here does not include the i18next
      language detector's own cache. */
  function Initialize(p: Page): (r: Page)
    ensures RtlConsistent(r.locale)
    ensures TruthyItem(GetItem(p.storage, LanguageKey)) ==>
      r.locale.currentLanguage == p.storage[LanguageKey]
    ensures !TruthyItem(GetItem(p.storage, LanguageKey)) ==> r.locale.currentLanguage == DefaultLanguage
    ensures r.storage == p.storage && r.document == p.document
  {
    var saved := GetItem(p.storage, LanguageKey);
    var lang := if TruthyItem(saved) then saved.value else DefaultLanguage;
    p.(locale := LocaleState(lang, lang == "ar"))
  }

  /** `changeLanguage`: any code is taken as given. The i18next language
      detector's own cache entry is not part of the modelled storage. */
  function ChangeLanguage(p: Page, language: string): (r: Page)
    ensures r.locale.currentLanguage == language
    ensures RtlConsistent(r.locale)
    ensures LanguageKey in r.storage && r.storage[LanguageKey] == language
    ensures forall k :: k in p.storage && k != LanguageKey ==> k in r.storage && r.storage[k] == p.storage[k]
    ensures r.document.lang == language
    ensures r.document.dir == "rtl" <==> language == "ar"
    ensures r.document.dir in {"rtl", "ltr"}
  {
    Page(LocaleState(language, language == "ar"),
         p.storage[LanguageKey := language],
         Document(if language == "ar" then "rtl" else "ltr", language))
  }

  /** Changing to the same language again changes nothing more. */
  lemma ChangeLanguageIdempotent(p: Page, language: string)
    ensures ChangeLanguage(ChangeLanguage(p, language), language) == ChangeLanguage(p, language)
  {
  }

  /** What a reload after a change starts with: the changed language. */
  lemma ChangeThenReload(p: Page, language: string, doc: Document)
    requires language != ""
    ensures Initialize(ChangeLanguage(p, language).(locale := InitialLocale, document := doc)).locale
      == ChangeLanguage(p, language).locale
  {
  }

  /** There is no supported-language check: an unknown code replaces the
      current one. */
  lemma UnsupportedCodeAccepted(p: Page)
    ensures ChangeLanguage(p, "fr").locale == LocaleState("fr", false)
  {
  }
}

=== FILE: matching.dfy ===
/** The investor/property matching rules: the below-market-value score,
    the preference match score, the ranking of matches, the recommendation
    filter and the deal-interest upsert. Scores are exact reals (the
    service calls no rounding function); a missing value (`None`) is folded onto the
    falsy value of its type, which every rule treats the same way. */
module Matching {
  import opened Base
  import Validators

  function Min(a: real, b: real): real { if a <= b then a else b }
  function Max(a: real, b: real): real { if a >= b then a else b }
  function Abs(a: real): real { if a >= 0.0 then a else -a }

  /** The property columns the rules read. */
  datatype Property = Property(
    id: int,
    title: string,
    location: string,
    region: string,
    propertyType: string,
    investmentStrategy: string,
    marketValue: real,
    askingPrice: real,
    locationScore: real,
    conditionScore: real,
    netYield: real,
    roiPotential: real,
    images: seq<string>)

  /** An investor's `investment_preferences`. */
  datatype Preferences = Preferences(
    minInvestment: real,
    maxInvestment: real,
    targetRegions: seq<string>,
    propertyTypes: seq<string>,
    minYield: real,
    investmentStrategy: string)

  // ---------------------------------------------------------------------
  // Below-market-value score

  /** Two points per percent of discount on the market value, at most 40;
      nothing unless both prices are set. A premium gives a negative term. */
  function DiscountTerm(marketValue: real, askingPrice: real): (r: real)
    ensures r <= 40.0
    ensures marketValue == 0.0 || askingPrice == 0.0 ==> r == 0.0
    ensures marketValue != 0.0 && askingPrice != 0.0 ==>
      var discount := (marketValue - askingPrice) / marketValue * 100.0;
      && (discount <= 20.0 ==> r == 2.0 * discount)
      && (discount >= 20.0 ==> r == 40.0)
    ensures marketValue > 0.0 && 0.0 < askingPrice <= marketValue ==> r >= 0.0
    ensures marketValue > 0.0 && askingPrice > marketValue ==> r < 0.0
  {
    if marketValue != 0.0 && askingPrice != 0.0 then
      Min((marketValue - askingPrice) / marketValue * 100.0 * 2.0, 40.0)
    else 0.0
  }

  /** 15, 10 or 5 points at net yields of 8, 6 and 4 percent. */
  function YieldTerm(netYield: real): (r: real)
    ensures r == 0.0 || r == 5.0 || r == 10.0 || r == 15.0
    ensures r == 15.0 <==> netYield >= 8.0
    ensures r == 10.0 <==> 6.0 <= netYield < 8.0
    ensures r == 5.0 <==> 4.0 <= netYield < 6.0
    ensures r == 0.0 <==> netYield < 4.0
  {
    if netYield != 0.0 then
      if netYield >= 8.0 then 15.0
      else if netYield >= 6.0 then 10.0
      else if netYield >= 4.0 then 5.0
      else 0.0
    else 0.0
  }

  /** A higher yield never earns fewer points. */
  lemma YieldTermMonotone(y1: real, y2: real)
    requires y1 <= y2
    ensures YieldTerm(y1) <= YieldTerm(y2)
  {
  }

  /** The ROI potential, at most 10 points. */
  function RoiTerm(roi: real): (r: real)
    ensures r <= 10.0 && r <= roi
    ensures roi <= 10.0 ==> r == roi
    ensures roi >= 10.0 ==> r == 10.0
  {
    if roi != 0.0 then Min(roi, 10.0) else 0.0
  }

  /** `calculate_bmv_score`. */
  function BmvScore(p: Property): (r: real)
    ensures r <= 100.0
    ensures r <= 40.0 + p.locationScore + p.conditionScore + 15.0 + 10.0
  {
    Min(DiscountTerm(p.marketValue, p.askingPrice) + p.locationScore + p.conditionScore
        + YieldTerm(p.netYield) + RoiTerm(p.roiPotential), 100.0)
  }

  /** Below the cap, the net yield enters the score through its tier
      points and nothing else. */
  lemma BmvYieldContribution(p: Property, netYield: real)
    ensures var q := p.(netYield := netYield);
      BmvScore(p) < 100.0 && BmvScore(q) < 100.0 ==>
        BmvScore(q) - BmvScore(p) == YieldTerm(netYield) - YieldTerm(p.netYield)
  {
  }

  /** Below the cap, the ROI potential enters the score through its
      capped term and nothing else. */
  lemma BmvRoiContribution(p: Property, roi: real)
    ensures var q := p.(roiPotential := roi);
      BmvScore(p) < 100.0 && BmvScore(q) < 100.0 ==>
        BmvScore(q) - BmvScore(p) == RoiTerm(roi) - RoiTerm(p.roiPotential)
  {
  }

  /** Below the cap, the location and condition scores are added as they
      are. */
  lemma BmvAddsLocationAndCondition(p: Property, locationScore: real, conditionScore: real)
    ensures var q := p.(locationScore := locationScore, conditionScore := conditionScore);
      BmvScore(p) < 100.0 && BmvScore(q) < 100.0 ==>
        BmvScore(q) - BmvScore(p) == (locationScore + conditionScore) - (p.locationScore + p.conditionScore)
  {
  }

  /** With the market value fixed, a lower asking price never lowers the
      score. */
  lemma BmvMonotoneInPrice(p: Property, cheaper: real)
    requires p.marketValue > 0.0 && 0.0 < cheaper <= p.askingPrice
    ensures BmvScore(p.(askingPrice := cheaper)) >= BmvScore(p)
  {
    var m := p.marketValue;
    assert (m - cheaper) / m >= (m - p.askingPrice) / m by {
      assert (m - cheaper) / m - (m - p.askingPrice) / m == (p.askingPrice - cheaper) / m;
    }
  }

  /** There is no lower clamp: an asking price twice the market value
      scores -200, which the backend's own score validator rejects. */
  lemma BmvScoreCanBeNegative()
    ensures var p := Property(1, "", "", "", "", "", 100.0, 200.0, 0.0, 0.0, 0.0, 0.0, []);
      BmvScore(p) == -200.0 && !Validators.ValidateBmvScore(Some(BmvScore(p)))
  {
    var p := Property(1, "", "", "", "", "", 100.0, 200.0, 0.0, 0.0, 0.0, 0.0, []);
    assert DiscountTerm(100.0, 200.0) == -200.0;
  }

  // ---------------------------------------------------------------------
  // Match score

  /** Up to 30 points for an asking price near the centre of the budget,
      falling linearly to 0 at one budget range away. `None` is the
      division by a zero budget range, which raises. */
  function BudgetTerm(prefs: Preferences, askingPrice: real): (r: Option<real>)
    ensures r.None? <==>
      prefs.minInvestment != 0.0 && prefs.maxInvestment == prefs.minInvestment && askingPrice != 0.0
    ensures r.Some? ==> r.value >= 0.0
    ensures r.Some? && prefs.maxInvestment >= prefs.minInvestment ==> r.value <= 30.0
    ensures prefs.minInvestment == 0.0 || prefs.maxInvestment == 0.0 || askingPrice == 0.0 ==> r == Some(0.0)
  {
    if prefs.minInvestment != 0.0 && prefs.maxInvestment != 0.0 then
      var range := prefs.maxInvestment - prefs.minInvestment;
      var centre := prefs.minInvestment + range / 2.0;
      if askingPrice != 0.0 then
        if range == 0.0 then None
        else Some(Max(0.0, 30.0 - Abs(askingPrice - centre) / range * 30.0))
      else Some(0.0)
    else Some(0.0)
  }

  /** On a proper budget the term is 30 at the centre and 0 from one budget
      range away. */
  lemma BudgetTermShape(prefs: Preferences, askingPrice: real)
    requires 0.0 < prefs.minInvestment < prefs.maxInvestment && askingPrice != 0.0
    ensures var range := prefs.maxInvestment - prefs.minInvestment;
      var centre := prefs.minInvestment + range / 2.0;
      && (askingPrice == centre ==> BudgetTerm(prefs, askingPrice) == Some(30.0))
      && (Abs(askingPrice - centre) >= range ==> BudgetTerm(prefs, askingPrice) == Some(0.0))
  {
    var range := prefs.maxInvestment - prefs.minInvestment;
    var centre := prefs.minInvestment + range / 2.0;
    if askingPrice == centre {
      assert Abs(askingPrice - centre) / range == 0.0;
    }
    if Abs(askingPrice - centre) >= range {
      QuotientAtLeastOne(Abs(askingPrice - centre), range);
    }
  }

  lemma QuotientAtLeastOne(a: real, b: real)
    requires 0.0 < b <= a
    ensures a / b >= 1.0
  {
    assert a / b * b == a;
  }

  /** With the budget bounds the wrong way round the term is not capped at
      30: nothing in the rule checks that the minimum is below the maximum. */
  lemma InvertedBudgetExceedsThirty()
    ensures BudgetTerm(Preferences(200.0, 100.0, [], [], 0.0, ""), 250.0) == Some(60.0)
  {
  }

  /** 25 points when the property's region is one of the target regions. */
  function LocationTerm(prefs: Preferences, p: Property): (r: real)
    ensures r == 25.0 <==> p.region != "" && p.region in prefs.targetRegions
    ensures r == 0.0 || r == 25.0
  {
    if prefs.targetRegions != [] && p.region != "" && p.region in prefs.targetRegions then 25.0 else 0.0
  }

  /** 20 points when the property type is one of the wanted types. */
  function TypeTerm(prefs: Preferences, p: Property): (r: real)
    ensures r == 20.0 <==> p.propertyType != "" && p.propertyType in prefs.propertyTypes
    ensures r == 0.0 || r == 20.0
  {
    if prefs.propertyTypes != [] && p.propertyType != "" && p.propertyType in prefs.propertyTypes then 20.0 else 0.0
  }

  /** 15 points when a set yield reaches a set minimum. */
  function MinYieldTerm(prefs: Preferences, p: Property): (r: real)
    ensures r == 15.0 <==> prefs.minYield != 0.0 && p.netYield != 0.0 && p.netYield >= prefs.minYield
    ensures r == 0.0 || r == 15.0
  {
    if prefs.minYield != 0.0 && p.netYield != 0.0 && p.netYield >= prefs.minYield then 15.0 else 0.0
  }

  /** 10 points when the strategies are set and equal. */
  function StrategyTerm(prefs: Preferences, p: Property): (r: real)
    ensures r == 10.0 <==> prefs.investmentStrategy != "" && prefs.investmentStrategy == p.investmentStrategy
    ensures r == 0.0 || r == 10.0
  {
    if prefs.investmentStrategy != "" && p.investmentStrategy != ""
       && prefs.investmentStrategy == p.investmentStrategy then 10.0
    else 0.0
  }

  /** `_calculate_match_score`: `None` when it raises. */
  function MatchScore(prefs: Preferences, p: Property): (r: Option<real>)
    ensures r.None? <==> BudgetTerm(prefs, p.askingPrice).None?
    ensures r.Some? ==> 0.0 <= r.value <= 100.0
  {
    match BudgetTerm(prefs, p.askingPrice)
    case None => None
    case Some(budget) =>
      Some(Min(budget + LocationTerm(prefs, p) + TypeTerm(prefs, p)
               + MinYieldTerm(prefs, p) + StrategyTerm(prefs, p), 100.0))
  }

  /** Below the cap, each criterion enters the score through its own term
      alone: changing only the region, the type, the net yield or the
      strategy changes the score by exactly that term's difference. */
  lemma MatchScoreContributions(prefs: Preferences, p: Property, region: string, propertyType: string,
                                netYield: real, strategy: string)
    ensures var q := p.(region := region);
      MatchScore(prefs, p).Some? && MatchScore(prefs, p).value < 100.0 && MatchScore(prefs, q).value < 100.0 ==>
        MatchScore(prefs, q).value - MatchScore(prefs, p).value == LocationTerm(prefs, q) - LocationTerm(prefs, p)
    ensures var q := p.(propertyType := propertyType);
      MatchScore(prefs, p).Some? && MatchScore(prefs, p).value < 100.0 && MatchScore(prefs, q).value < 100.0 ==>
        MatchScore(prefs, q).value - MatchScore(prefs, p).value == TypeTerm(prefs, q) - TypeTerm(prefs, p)
    ensures var q := p.(netYield := netYield);
      MatchScore(prefs, p).Some? && MatchScore(prefs, p).value < 100.0 && MatchScore(prefs, q).value < 100.0 ==>
        MatchScore(prefs, q).value - MatchScore(prefs, p).value == MinYieldTerm(prefs, q) - MinYieldTerm(prefs, p)
    ensures var q := p.(investmentStrategy := strategy);
      MatchScore(prefs, p).Some? && MatchScore(prefs, p).value < 100.0 && MatchScore(prefs, q).value < 100.0 ==>
        MatchScore(prefs, q).value - MatchScore(prefs, p).value == StrategyTerm(prefs, q) - StrategyTerm(prefs, p)
  {
  }

  /** Below the cap, changing only the asking price changes the score by
      exactly the budget term's difference. */
  lemma MatchScoreBudgetContribution(prefs: Preferences, p: Property, askingPrice: real)
    ensures var q := p.(askingPrice := askingPrice);
      && MatchScore(prefs, p).Some? && MatchScore(prefs, q).Some?
      && MatchScore(prefs, p).value < 100.0 && MatchScore(prefs, q).value < 100.0 ==>
        MatchScore(prefs, q).value - MatchScore(prefs, p).value
          == BudgetTerm(prefs, askingPrice).value - BudgetTerm(prefs, p.askingPrice).value
  {
  }

  /** On a proper budget the terms' maxima add up to exactly 100, so the
      cap never cuts, and a property meeting every preference at the
      budget's centre scores the full 100. */
  lemma MatchScoreFull(prefs: Preferences, p: Property)
    requires 0.0 < prefs.minInvestment < prefs.maxInvestment
    requires p.askingPrice == prefs.minInvestment + (prefs.maxInvestment - prefs.minInvestment) / 2.0
    requires p.region != "" && p.region in prefs.targetRegions
    requires p.propertyType != "" && p.propertyType in prefs.propertyTypes
    requires prefs.minYield != 0.0 && p.netYield != 0.0 && p.netYield >= prefs.minYield
    requires prefs.investmentStrategy != "" && prefs.investmentStrategy == p.investmentStrategy
    ensures MatchScore(prefs, p) == Some(100.0)
  {
    BudgetTermShape(prefs, p.askingPrice);
  }

  // ---------------------------------------------------------------------
  // Ranking

  datatype Match = Match(property: Property, matchScore: real, bmvScore: real, totalScore: real)

  /** The scored match of one property; `None` when its score raises. */
  function Score(prefs: Preferences, p: Property): (r: Option<Match>)
    ensures r.None? <==> MatchScore(prefs, p).None?
    ensures r.Some? ==> r.value.property == p && r.value.totalScore == (r.value.matchScore + r.value.bmvScore) / 2.0
    ensures r.Some? ==> r.value.totalScore <= 100.0
  {
    match MatchScore(prefs, p)
    case None => None
    case Some(m) =>
      var b := BmvScore(p);
      Some(Match(p, m, b, (m + b) / 2.0))
  }

  /** The scored matches of the fetched properties, in fetch order; `None`
      when any score raises. */
  function ScoreAll(prefs: Preferences, props: seq<Property>): (r: Option<seq<Match>>)
    ensures r.Some? <==> forall i :: 0 <= i < |props| ==> MatchScore(prefs, props[i]).Some?
    ensures r.Some? ==>
      (|r.value| == |props| && forall i :: 0 <= i < |props| ==> Some(r.value[i]) == Score(prefs, props[i]))
  {
    if props == [] then Some([])
    else
      match (Score(prefs, props[0]), ScoreAll(prefs, props[1..]))
      case (Some(m), Some(rest)) =>
        assert forall i :: 1 <= i < |props| ==> props[i] == props[1..][i - 1];
        Some([m] + rest)
      case (None, _) => None
      case (_, None) =>
        assert !MatchScore(prefs, props[1..][0]).Some? || exists i :: 0 <= i < |props| - 1 && MatchScore(prefs, props[1..][i]).None?;
        None
  }

  /** Non-increasing by total score. */
  predicate SortedDesc(ms: seq<Match>) {
    forall i, j :: 0 <= i < j < |ms| ==> ms[i].totalScore >= ms[j].totalScore
  }

  /** Places `m` before the first match that does not outscore it. */
  function Insert(m: Match, ms: seq<Match>): (r: seq<Match>)
    requires SortedDesc(ms)
    ensures SortedDesc(r)
    ensures multiset(r) == multiset(ms) + multiset{m}
    ensures |r| == |ms| + 1 && (r[0] == m || (ms != [] && r[0] == ms[0]))
  {
    if ms == [] || m.totalScore >= ms[0].totalScore then
      ConsSorted(m, ms);
      [m] + ms
    else
      var rest := Insert(m, ms[1..]);
      ConsSorted(ms[0], rest);
      assert ms == [ms[0]] + ms[1..];
      [ms[0]] + rest
  }

  /** A match at least as good as the head of a ranking can lead it. */
  lemma ConsSorted(x: Match, ms: seq<Match>)
    requires SortedDesc(ms) && (ms == [] || ms[0].totalScore <= x.totalScore)
    ensures SortedDesc([x] + ms)
  {
  }

  /** `matches.sort(key=total_score, reverse=True)`, as an insertion sort. */
  function RankMatches(ms: seq<Match>): (r: seq<Match>)
    ensures SortedDesc(r)
    ensures multiset(r) == multiset(ms)
  {
    if ms == [] then []
    else
      assert ms == [ms[0]] + ms[1..];
      Insert(ms[0], RankMatches(ms[1..]))
  }

  /** `match_investor_to_properties` after its query: score each fetched
      property and rank the results. */
  function MatchInvestor(prefs: Preferences, fetched: seq<Property>): (r: Option<seq<Match>>)
    ensures r.Some? <==> ScoreAll(prefs, fetched).Some?
    ensures r.Some? ==> SortedDesc(r.value) && multiset(r.value) == multiset(ScoreAll(prefs, fetched).value)
  {
    match ScoreAll(prefs, fetched)
    case None => None
    case Some(ms) => Some(RankMatches(ms))
  }

  // ---------------------------------------------------------------------
  // Recommendations

  datatype Investor = Investor(id: int, preferences: Preferences, dealPropertyIds: set<int>)

  datatype Recommendation = Recommendation(
    propertyId: int,
    title: string,
    location: string,
    askingPrice: real,
    netYield: real,
    bmvScore: real,
    matchScore: real,
    totalScore: real,
    imageUrl: Option<string>)

  function ToRecommendation(m: Match): (r: Recommendation)
    ensures r.propertyId == m.property.id && r.totalScore == m.totalScore
    ensures r.imageUrl.Some? <==> m.property.images != []
  {
    var p := m.property;
    Recommendation(p.id, p.title, p.location, p.askingPrice, p.netYield,
                   m.bmvScore, m.matchScore, m.totalScore,
                   if p.images != [] then Some(p.images[0]) else None)
  }

  /** The matches whose property the investor has no deal on, in order. */
  function Unseen(ms: seq<Match>, viewed: set<int>): (r: seq<Match>)
    ensures forall m :: m in r <==> m in ms && m.property.id !in viewed
    ensures |r| <= |ms|
  {
    if ms == [] then []
    else
      assert ms == [ms[0]] + ms[1..];
      (if ms[0].property.id in viewed then [] else [ms[0]]) + Unseen(ms[1..], viewed)
  }

  /** How many recommendations a `limit` allows: the check comes after the
      append, so a limit of zero or less still admits one. */
  function Allowance(limit: int): nat { if limit >= 1 then limit else 1 }

  /** The recommendation rows of some matches, in order. */
  function RecommendAll(ms: seq<Match>): (r: seq<Recommendation>)
    ensures |r| == |ms| && forall k :: 0 <= k < |ms| ==> r[k] == ToRecommendation(ms[k])
  {
    seq(|ms|, k requires 0 <= k < |ms| => ToRecommendation(ms[k]))
  }

  /** The first unseen matches, as many as the limit allows, in ranked
      order, as recommendation rows. */
  function Recommended(ranked: seq<Match>, viewed: set<int>, limit: int): seq<Recommendation> {
    var unseen := Unseen(ranked, viewed);
    RecommendAll(if |unseen| <= Allowance(limit) then unseen else unseen[..Allowance(limit)])
  }

  /** `get_investor_recommendations`, given the ranked matches the service
      fetches for the investor. */
  method GetInvestorRecommendations(investor: Option<Investor>, ranked: seq<Match>, limit: int)
    returns (recs: seq<Recommendation>)
    ensures investor.None? ==> recs == []
    ensures investor.Some? ==> recs == Recommended(ranked, investor.value.dealPropertyIds, limit)
  {
    if investor.None? {
      return [];
    }
    var viewed := investor.value.dealPropertyIds;
    recs := [];
    var i := 0;
    while i < |ranked|
      invariant 0 <= i <= |ranked|
      invariant |recs| < Allowance(limit)
      invariant recs == RecommendAll(Unseen(ranked[..i], viewed))
    {
      RecommendStep(ranked, i, viewed);
      var m := ranked[i];
      if m.property.id !in viewed {
        recs := recs + [ToRecommendation(m)];
        if |recs| >= limit {
          RecommendedWhenFull(ranked, i + 1, viewed, limit);
          return;
        }
      }
      i := i + 1;
    }
    assert ranked[..i] == ranked;
  }

  /** Once the scanned prefix has filled the allowance, it is the answer. */
  lemma RecommendedWhenFull(ms: seq<Match>, i: int, viewed: set<int>, limit: int)
    requires 0 <= i <= |ms| && |Unseen(ms[..i], viewed)| == Allowance(limit)
    ensures RecommendAll(Unseen(ms[..i], viewed)) == Recommended(ms, viewed, limit)
  {
    UnseenPrefix(ms, i, viewed);
  }

  /** One more match scanned adds its row exactly when it is unseen. */
  lemma RecommendStep(ms: seq<Match>, i: int, viewed: set<int>)
    requires 0 <= i < |ms|
    ensures RecommendAll(Unseen(ms[..i + 1], viewed))
      == RecommendAll(Unseen(ms[..i], viewed)) + (if ms[i].property.id in viewed then [] else [ToRecommendation(ms[i])])
  {
    UnseenStep(ms, i, viewed);
    var before := Unseen(ms[..i], viewed);
    if ms[i].property.id !in viewed {
      RecommendAllAppend(before, [ms[i]]);
    }
  }

  /** The unseen matches of a prefix are a prefix of the unseen matches. */
  lemma UnseenPrefix(ms: seq<Match>, i: int, viewed: set<int>)
    requires 0 <= i <= |ms|
    ensures var u := Unseen(ms[..i], viewed);
      |u| <= |Unseen(ms, viewed)| && Unseen(ms, viewed)[..|u|] == u
  {
    assert ms == ms[..i] + ms[i..];
    UnseenAppend(ms[..i], ms[i..], viewed);
  }

  lemma RecommendAllAppend(a: seq<Match>, b: seq<Match>)
    ensures RecommendAll(a + b) == RecommendAll(a) + RecommendAll(b)
  {
  }

  lemma UnseenStep(ms: seq<Match>, i: int, viewed: set<int>)
    requires 0 <= i < |ms|
    ensures Unseen(ms[..i + 1], viewed) == Unseen(ms[..i], viewed) + (if ms[i].property.id in viewed then [] else [ms[i]])
  {
    UnseenAppend(ms[..i], [ms[i]], viewed);
    assert ms[..i + 1] == ms[..i] + [ms[i]];
  }

  lemma {:induction false} UnseenAppend(a: seq<Match>, b: seq<Match>, viewed: set<int>)
    ensures Unseen(a + b, viewed) == Unseen(a, viewed) + Unseen(b, viewed)
  {
    if a == [] {
      assert a + b == b;
    } else {
      assert (a + b)[1..] == a[1..] + b;
      UnseenAppend(a[1..], b, viewed);
    }
  }

  // ---------------------------------------------------------------------
  // Deal interest

  /** The `interest_level` default of `create_deal_interest`. */
  const DefaultInterestLevel := "interested"

  /** A deal row: `updatedAt` is `None` until an update stamps it. */
  datatype Deal = Deal(interestLevel: string, status: string, updatedAt: Option<int>)

  /** The deals table, keyed by (investor, property). */
  type Deals = map<(int, int), Deal>

  /** `create_deal_interest`, with the current time passed in. */
  function CreateDealInterest(deals: Deals, investorId: int, propertyId: int, interestLevel: string, now: int)
    : (r: (Deals, Deal))
    ensures var key := (investorId, propertyId);
      && r.0.Keys == deals.Keys + {key}
      && r.0[key] == r.1
      && r.1.interestLevel == interestLevel
      && (forall k :: k in deals && k != key ==> r.0[k] == deals[k])
      && (key !in deals ==> r.1.status == "pending" && r.1.updatedAt.None?)
      && (key in deals ==> r.1 == deals[key].(interestLevel := interestLevel, updatedAt := Some(now)))
  {
    var key := (investorId, propertyId);
    var deal :=
      if key in deals then deals[key].(interestLevel := interestLevel, updatedAt := Some(now))
      else Deal(interestLevel, "pending", None);
    (deals[key := deal], deal)
  }

  /** A call without an interest level creates a pending "interested"
      deal for a new pair, and marks an existing deal "interested". */
  lemma DefaultInterestIsInterested(deals: Deals, investorId: int, propertyId: int, now: int)
    ensures var r := CreateDealInterest(deals, investorId, propertyId, DefaultInterestLevel, now);
      && r.1.interestLevel == "interested"
      && ((investorId, propertyId) !in deals ==> r.1 == Deal("interested", "pending", None))
  {
  }

  /** Expressing interest again keeps exactly one deal for the pair,
      leaves every other deal alone, and never changes the deal's status;
      only its interest level and time stamp move. */
  lemma CreateDealInterestSettles(deals: Deals, investorId: int, propertyId: int, level: string, level2: string, now: int, later: int)
    ensures var key := (investorId, propertyId);
      var once := CreateDealInterest(deals, investorId, propertyId, level, now).0;
      var twice := CreateDealInterest(once, investorId, propertyId, level2, later).0;
      && twice.Keys == once.Keys
      && twice[key] == once[key].(interestLevel := level2, updatedAt := Some(later))
      && (forall k :: k in once && k != key ==> twice[k] == once[k])
  {
  }
}

=== FILE: nav.dfy ===
/** The public layout's navigation bar and its "current page" highlight. */
module PublicNav {

  /** The `href`s of the navigation items, in order. */
  const Navigation: seq<string> := ["/", "/about", "/services", "/blog", "/contact"]

  /** `isCurrentPage`: the home item only on `/` itself, every other item on
      any path that starts with its `href` (`<=` is the prefix order). */
  predicate IsCurrentPage(pathname: string, href: string) {
    if href == "/" then pathname == "/" else href <= pathname
  }

  /** Each item is current on its own path. */
  lemma OwnPathIsCurrent(k: int)
    requires 0 <= k < |Navigation|
    ensures IsCurrentPage(Navigation[k], Navigation[k])
  {
  }

  /** The prefix test is on characters, not path segments. */
  lemma PrefixIsCharacterBased()
    ensures IsCurrentPage("/blogging", "/blog")
    ensures IsCurrentPage("/blog/2024/post", "/blog")
    ensures !IsCurrentPage("/blog", "/")
  {
  }

  /** On any path at most one item is current: after the shared `/`, the
      other items already differ in their second character. */
  lemma AtMostOneCurrent(pathname: string, i: int, j: int)
    requires 0 <= i < |Navigation| && 0 <= j < |Navigation|
    requires IsCurrentPage(pathname, Navigation[i]) && IsCurrentPage(pathname, Navigation[j])
    ensures i == j
  {
    if i != 0 && j != 0 {
      assert Navigation[i][1] == pathname[1] == Navigation[j][1];
    }
  }

  /** On each of the item paths exactly that item is current. */
  lemma ExactlyOneCurrent(k: int, j: int)
    requires 0 <= k < |Navigation| && 0 <= j < |Navigation|
    ensures IsCurrentPage(Navigation[k], Navigation[j]) <==> j == k
  {
    OwnPathIsCurrent(k);
    if IsCurrentPage(Navigation[k], Navigation[j]) {
      AtMostOneCurrent(Navigation[k], j, k);
    }
  }
}

=== FILE: pagination.dfy ===
/** The pagination bar: the window of visible page numbers, the buttons and
    ellipses drawn around it, which clicks reach `onPageChange`, and the
    "showing x to y of n" item range. */
module Pagination {
  import opened Base

  function Max(a: int, b: int): int { if a >= b then a else b }
  function Min(a: int, b: int): int { if a <= b then a else b }

  /** The integers `lo..hi`, ascending (empty when `lo > hi`). */
  function Range(lo: int, hi: int): (r: seq<int>)
    ensures |r| == if lo <= hi then hi - lo + 1 else 0
    ensures forall i :: 0 <= i < |r| ==> r[i] == lo + i
    decreases hi - lo
  {
    if lo > hi then [] else [lo] + Range(lo + 1, hi)
  }

  /** First page of the window (`Math.floor` is Dafny's `/` for the
      positive divisor 2). */
  function WindowStart(current: int, total: int, maxVisible: int): int
  {
    var half := maxVisible / 2;
    if current + half >= total then Max(1, total - maxVisible + 1) else Max(1, current - half)
  }

  /** Last page of the window. */
  function WindowEnd(current: int, total: int, maxVisible: int): int
  {
    var half := maxVisible / 2;
    if current <= half then Min(total, maxVisible) else Min(total, current + half)
  }

  /** `getVisiblePages`. */
  function VisiblePages(current: int, total: int, maxVisible: int): (pages: seq<int>)
    // consecutive, ascending, inside 1..total
    ensures forall i :: 0 <= i < |pages| ==> pages[i] == pages[0] + i
    ensures forall i :: 0 <= i < |pages| ==> 1 <= pages[i] <= total
    // the current page is always shown
    ensures 1 <= current <= total && maxVisible >= 1 ==> current in pages
    // at most 2*floor(maxVisible/2)+1 pages, so at most maxVisible when odd
    ensures maxVisible >= 0 ==> |pages| <= 2 * (maxVisible / 2) + 1
    ensures maxVisible >= 1 && maxVisible % 2 == 1 ==> |pages| <= maxVisible
    // a full window when there are enough pages, every page otherwise
    ensures 1 <= current <= total && 1 <= maxVisible <= total ==> |pages| >= maxVisible
    ensures 1 <= current <= total < maxVisible ==> pages == Range(1, total)
  {
    var lo := WindowStart(current, total, maxVisible);
    var hi := WindowEnd(current, total, maxVisible);
    var pages := Range(lo, hi);
    assert 1 <= current <= total && maxVisible >= 1 ==> current in pages by {
      if 1 <= current <= total && maxVisible >= 1 {
        assert lo <= current <= hi;
        assert pages[current - lo] == current;
      }
    }
    pages
  }

  /** With an even maximum, a window clear of both ends is centred on the
      current page and shows one page more than the maximum; at either end
      the window shows exactly the maximum. */
  lemma EvenMaximumShowsOneMore(current: int, total: int, maxVisible: int)
    requires maxVisible >= 2 && maxVisible % 2 == 0
    requires 1 <= current <= total && maxVisible <= total
    ensures var half := maxVisible / 2;
      half < current && current + half < total ==>
        VisiblePages(current, total, maxVisible) == Range(current - half, current + half)
        && |VisiblePages(current, total, maxVisible)| == maxVisible + 1
    ensures var half := maxVisible / 2;
      current <= half || current + half >= total ==>
        |VisiblePages(current, total, maxVisible)| == maxVisible
  {
  }

  // ---------------------------------------------------------------------
  // The rendered bar

  /** A `PageButton` (the page it would report, and its flags) or an
      ellipsis. */
  datatype Item = Button(page: int, active: bool, disabled: bool) | Ellipsis

  datatype Options = Options(showFirstLast: bool, showPrevNext: bool, showPageNumbers: bool, maxVisiblePages: int)

  const DefaultOptions := Options(true, true, true, 5)

  /** The page-1 button and its ellipsis before the window
      (`visiblePages[0]` of an empty window is `undefined`, which compares
      false). */
  function Leading(pages: seq<int>): seq<Item>
  {
    if |pages| > 0 && pages[0] > 1 then
      [Button(1, false, false)] + (if pages[0] > 2 then [Ellipsis] else [])
    else []
  }

  /** The ellipsis and last-page button after the window. */
  function Trailing(pages: seq<int>, total: int): seq<Item>
  {
    if |pages| > 0 && pages[|pages| - 1] < total then
      (if pages[|pages| - 1] < total - 1 then [Ellipsis] else []) + [Button(total, false, false)]
    else []
  }

  function NumberButtons(pages: seq<int>, current: int): (r: seq<Item>)
    ensures |r| == |pages|
    ensures forall i :: 0 <= i < |pages| ==> r[i] == Button(pages[i], pages[i] == current, false)
  {
    seq(|pages|, i requires 0 <= i < |pages| => Button(pages[i], pages[i] == current, false))
  }

  /** The page-1 button shows exactly when page 1 is outside the window, and
      its ellipsis exactly when page 2 is outside too; the last-page button
      and its ellipsis mirror this at `total` and `total - 1`. */
  lemma EdgeButtonsMatchHiddenPages(current: int, total: int, maxVisible: int)
    requires 1 <= current <= total && maxVisible >= 1
    ensures var pages := VisiblePages(current, total, maxVisible);
      && (|Leading(pages)| > 0 <==> 1 !in pages)
      && (Ellipsis in Leading(pages) <==> 1 !in pages && 2 !in pages)
      && (|Trailing(pages, total)| > 0 <==> total !in pages)
      && (Ellipsis in Trailing(pages, total) <==> total !in pages && total - 1 !in pages)
  {
    var pages := VisiblePages(current, total, maxVisible);
    var n := |pages|;
    assert current in pages;
    assert 1 in pages <==> pages[0] <= 1 by {
      if pages[0] <= 1 { assert pages[0] == 1; }
    }
    assert 2 in pages <==> pages[0] <= 2 && pages[n - 1] >= 2 by {
      if pages[0] <= 2 && pages[n - 1] >= 2 { assert pages[2 - pages[0]] == 2; }
    }
    assert total in pages <==> pages[n - 1] >= total by {
      if pages[n - 1] >= total { assert pages[n - 1] == total; }
    }
    assert total - 1 in pages <==> pages[n - 1] >= total - 1 && pages[0] <= total - 1 by {
      if pages[n - 1] >= total - 1 && pages[0] <= total - 1 {
        assert pages[total - 1 - pages[0]] == total - 1;
      }
    }
  }

  function FirstButton(current: int, opts: Options): seq<Item> {
    if opts.showFirstLast && current > 1 then [Button(1, false, current == 1)] else []
  }

  function PrevButton(current: int, opts: Options): seq<Item> {
    if opts.showPrevNext then [Button(current - 1, false, current == 1)] else []
  }

  function PageNumbers(current: int, total: int, opts: Options, pages: seq<int>): seq<Item> {
    if opts.showPageNumbers
    then Leading(pages) + NumberButtons(pages, current) + Trailing(pages, total)
    else []
  }

  function NextButton(current: int, total: int, opts: Options): seq<Item> {
    if opts.showPrevNext then [Button(current + 1, false, current == total)] else []
  }

  function LastButton(current: int, total: int, opts: Options): seq<Item> {
    if opts.showFirstLast && current < total then [Button(total, false, current == total)] else []
  }

  /** The buttons of the bar, left to right, around a window `pages`. */
  function Bar(current: int, total: int, opts: Options, pages: seq<int>): seq<Item>
  {
    FirstButton(current, opts) + PrevButton(current, opts) + PageNumbers(current, total, opts, pages)
    + NextButton(current, total, opts) + LastButton(current, total, opts)
  }

  /** The whole bar; nothing renders when there is at most one page. */
  function Render(current: int, total: int, opts: Options): (r: Option<seq<Item>>)
    ensures r.None? <==> total <= 1
  {
    if total <= 1 then None
    else Some(Bar(current, total, opts, VisiblePages(current, total, opts.maxVisiblePages)))
  }

  /** `PageButton`'s click handler: the page reported to `onPageChange`,
      unless the button is disabled or is the current page. */
  function Click(item: Item): (r: Option<int>)
    ensures r.Some? <==> item.Button? && !item.disabled && !item.active
    ensures r.Some? ==> r.value == item.page
  {
    if item.Button? && !item.disabled && !item.active then Some(item.page) else None
  }

  /** Previous is disabled exactly on the first page and Next exactly on the
      last. */
  lemma PrevNextDisabled(current: int, total: int, opts: Options)
    requires total > 1 && opts.showPrevNext
    ensures var items := Render(current, total, opts).value;
      var k := if opts.showFirstLast && current > 1 then 1 else 0;
      var prev := items[k];
      var next := items[|items| - 1 - (if opts.showFirstLast && current < total then 1 else 0)];
      && prev == Button(current - 1, false, current == 1)
      && next == Button(current + 1, false, current == total)
  {
  }

  /** A click on `item`, if it fires, names a page in `1..total` other than
      `current`. */
  predicate ClickInRange(item: Item, current: int, total: int) {
    Click(item).Some? ==> 1 <= Click(item).value <= total && Click(item).value != current
  }

  predicate AllClicksInRange(items: seq<Item>, current: int, total: int) {
    forall i :: 0 <= i < |items| ==> ClickInRange(items[i], current, total)
  }

  lemma AllClicksInRangeAppend(a: seq<Item>, b: seq<Item>, current: int, total: int)
    requires AllClicksInRange(a, current, total) && AllClicksInRange(b, current, total)
    ensures AllClicksInRange(a + b, current, total)
  {
    forall i | 0 <= i < |a + b| ensures ClickInRange((a + b)[i], current, total) {
      if i >= |a| { assert (a + b)[i] == b[i - |a|]; }
    }
  }

  /** Around any window of consecutive pages in `1..total` that holds the
      current page, every button click stays in range. */
  lemma BarClicksInRange(current: int, total: int, opts: Options, pages: seq<int>)
    requires 1 <= current <= total
    requires |pages| > 0 && pages[0] <= current <= pages[|pages| - 1]
    requires forall i :: 0 <= i < |pages| ==> 1 <= pages[i] <= total
    ensures AllClicksInRange(Bar(current, total, opts, pages), current, total)
  {
    var first := FirstButton(current, opts);
    var prev := PrevButton(current, opts);
    var lead := Leading(pages);
    var nums := NumberButtons(pages, current);
    var trail := Trailing(pages, total);
    var next := NextButton(current, total, opts);
    var last := LastButton(current, total, opts);
    var middle := PageNumbers(current, total, opts, pages);
    assert AllClicksInRange(first, current, total);
    assert AllClicksInRange(prev, current, total);
    assert AllClicksInRange(next, current, total);
    assert AllClicksInRange(last, current, total);
    assert AllClicksInRange(lead, current, total);
    assert AllClicksInRange(trail, current, total);
    assert AllClicksInRange(nums, current, total) by {
      forall i | 0 <= i < |nums| ensures ClickInRange(nums[i], current, total) {
        assert nums[i] == Button(pages[i], pages[i] == current, false);
      }
    }
    AllClicksInRangeAppend(lead, nums, current, total);
    AllClicksInRangeAppend(lead + nums, trail, current, total);
    assert AllClicksInRange(middle, current, total);
    AllClicksInRangeAppend(first, prev, current, total);
    AllClicksInRangeAppend(first + prev, middle, current, total);
    AllClicksInRangeAppend(first + prev + middle, next, current, total);
    AllClicksInRangeAppend(first + prev + middle + next, last, current, total);
  }

  /** Every click the bar can deliver names a page in `1..total` other than
      the current one. */
  lemma ClicksStayInRange(current: int, total: int, opts: Options)
    requires 1 <= current <= total && total > 1 && opts.maxVisiblePages >= 1
    ensures AllClicksInRange(Render(current, total, opts).value, current, total)
  {
    var pages := VisiblePages(current, total, opts.maxVisiblePages);
    assert current in pages;
    BarClicksInRange(current, total, opts, pages);
  }

  // ---------------------------------------------------------------------
  // PaginationWithPageSize

  /** `startItem` and `endItem` of the "showing" line. */
  function ItemRange(current: int, pageSize: int, totalItems: int): (r: (int, int))
    ensures r.1 <= totalItems
    ensures r.1 - r.0 + 1 <= pageSize
  {
    ((current - 1) * pageSize + 1, Min(current * pageSize, totalItems))
  }

  /** Integer division by a positive divisor is pinned down by the bracket
      the dividend falls in. */
  lemma DivisionBracket(x: int, d: int, q: int)
    requires d >= 1
    ensures q * d <= x < (q + 1) * d <==> x / d == q
  {
    var k := x / d;
    var m := x % d;
    assert x == k * d + m && 0 <= m < d;
    assert (k + 1) * d == k * d + d;
    assert (q + 1) * d == q * d + d;
    if q * d <= x < (q + 1) * d {
      if k >= q + 1 {
        MulMonotone(q + 1, k, d);
      } else if k <= q - 1 {
        MulMonotone(k + 1, q, d);
      }
    }
  }

  lemma MulMonotone(a: int, b: int, d: int)
    requires a <= b && 0 <= d
    ensures a * d <= b * d
  {
    assert b * d - a * d == (b - a) * d;
  }

  /** The range shown on page `current` is exactly the items (numbered from
      1) that fall on that page. */
  lemma ItemRangeIsPage(current: int, pageSize: int, totalItems: int, item: int)
    requires current >= 1 && pageSize >= 1
    ensures var r := ItemRange(current, pageSize, totalItems);
      r.0 <= item <= r.1 <==> 1 <= item <= totalItems && (item - 1) / pageSize + 1 == current
  {
    DivisionBracket(item - 1, pageSize, current - 1);
    assert (current - 1 + 1) * pageSize == current * pageSize;
    assert (current - 1) * pageSize >= 0;
  }
}

=== FILE: validators.dfy ===
/** The backend's input validators and `sanitize_string`. Each regular
    expression is a hand-written recogniser over ASCII text, proved equal to
    a declarative description of the strings the expression matches. */
module Validators {
  import opened Base
  import opened Chars
  import Formatters

  /** How a `$`-anchored `re.match` treats the end of its subject: the
      pattern must cover the whole string, or the string without one final
      newline (`$` also matches just before a trailing "\n"). */
  predicate DollarAnchored(s: string, body: string -> bool) {
    body(s) || (|s| > 0 && s[|s| - 1] == '\n' && body(s[..|s| - 1]))
  }

  // ---------------------------------------------------------------------
  // E-mail addresses

  /** `[a-zA-Z0-9._%+-]` */
  predicate LocalChar(c: char) { IsAlnum(c) || c == '.' || c == '_' || c == '%' || c == '+' || c == '-' }
  /** `[a-zA-Z0-9.-]` */
  predicate DomainChar(c: char) { IsAlnum(c) || c == '.' || c == '-' }

  predicate AllLocal(s: string) { forall i :: 0 <= i < |s| ==> LocalChar(s[i]) }
  predicate AllDomain(s: string) { forall i :: 0 <= i < |s| ==> DomainChar(s[i]) }
  predicate AllLetters(s: string) { forall i :: 0 <= i < |s| ==> IsLetter(s[i]) }

  /** `s` is the whole of `local@domain.tld`, its `@` at index `at` and the
      `.` before the top-level domain at index `dot`: a non-empty local
      part, a non-empty domain and a top-level domain of two or more
      letters. */
  predicate EmailSplit(s: string, at: int, dot: int) {
    && 0 < at && at + 1 < dot && dot + 3 <= |s|
    && s[at] == '@' && s[dot] == '.'
    && AllLocal(s[..at]) && AllDomain(s[at + 1..dot]) && AllLetters(s[dot + 1..])
  }

  /** Recogniser for the e-mail pattern: split at the first `@` and at
      the last `.` after it. */
  predicate EmailBody(s: string) {
    && '@' in s
    && var at := FirstIndex(s, '@');
    var rest := s[at + 1..];
    && at > 0 && AllLocal(s[..at]) && '.' in rest
    && var d := LastIndex(rest, '.');
    && d > 0 && |rest| - d >= 3 && AllDomain(rest[..d]) && AllLetters(rest[d + 1..])
  }

  /** The recogniser accepts exactly the strings that split as an address. */
  lemma EmailBodyIff(s: string)
    ensures EmailBody(s) <==> exists at, dot :: EmailSplit(s, at, dot)
  {
    if EmailBody(s) {
      var at := FirstIndex(s, '@');
      var rest := s[at + 1..];
      var d := LastIndex(rest, '.');
      var dot := at + 1 + d;
      assert s[at + 1..dot] == rest[..d];
      assert s[dot + 1..] == rest[d + 1..];
      assert EmailSplit(s, at, dot);
    }
    if exists at, dot :: EmailSplit(s, at, dot) {
      var at, dot :| EmailSplit(s, at, dot);
      EmailSplitUnique(s, at, dot);
    }
  }

  /** A split, when there is one, is the one the recogniser finds. */
  lemma EmailSplitUnique(s: string, at: int, dot: int)
    requires EmailSplit(s, at, dot)
    ensures EmailBody(s)
  {
    assert FirstIndex(s, '@') == at by {
      assert forall i :: 0 <= i < at ==> s[i] == s[..at][i];
    }
    var rest := s[at + 1..];
    var k := dot - at - 1;
    assert rest[..k] == s[at + 1..dot];
    assert rest[k + 1..] == s[dot + 1..];
    assert rest[k] == '.' && '.' !in rest[k + 1..];
    LastIndexUnique(rest, '.', k);
  }

  /** `validate_email`. */
  function ValidateEmail(email: string): (r: bool)
    ensures r <==> email != "" && DollarAnchored(email, EmailBody)
    ensures r ==> 6 <= |email|
  {
    if email == "" then false
    else
      EmailBodyIff(email);
      EmailBodyIff(email[..|email| - 1]);
      DollarAnchored(email, EmailBody)
  }

  /** The same pattern matched against the whole string
      (`re.fullmatch`), which is what an e-mail check means. */
  function ValidateEmailStrict(email: string): (r: bool)
    ensures r <==> exists at, dot :: EmailSplit(email, at, dot)
    ensures r ==> '\n' !in email
  {
    EmailBodyIff(email);
    SplitHasNoNewline(email);
    EmailBody(email)
  }

  /** Every character of an address belongs to one of its parts' classes,
      none of which holds a newline. */
  lemma SplitHasNoNewline(s: string)
    ensures (exists at, dot :: EmailSplit(s, at, dot)) ==> '\n' !in s
  {
    if exists at, dot :: EmailSplit(s, at, dot) {
      var at, dot :| EmailSplit(s, at, dot);
      forall i | 0 <= i < |s|
        ensures s[i] != '\n'
      {
        if i < at {
          assert LocalChar(s[..at][i]);
        } else if at < i < dot {
          assert DomainChar(s[at + 1..dot][i - at - 1]);
        } else if dot < i {
          assert IsLetter(s[dot + 1..][i - dot - 1]);
        }
      }
    }
  }

  /** The `$` anchor lets one trailing newline through: every address
      followed by "\n" is still accepted as written, though the result is
      no address. */
  lemma EmailTrailingNewlineAccepted(address: string)
    requires ValidateEmailStrict(address)
    ensures ValidateEmail(address + "\n")
    ensures !ValidateEmailStrict(address + "\n")
  {
    var t := address + "\n";
    assert t[..|t| - 1] == address && t[|t| - 1] == '\n';
    assert DollarAnchored(t, EmailBody);
  }

  // ---------------------------------------------------------------------
  // Passwords

  predicate HasUpper(s: string) { exists i :: 0 <= i < |s| && IsUpper(s[i]) }
  predicate HasLower(s: string) { exists i :: 0 <= i < |s| && IsLower(s[i]) }
  predicate HasDigit(s: string) { exists i :: 0 <= i < |s| && IsDigit(s[i]) }

  /** At least eight characters, with an upper-case letter, a lower-case
      letter and a digit somewhere. */
  predicate StrongPassword(p: string) {
    |p| >= 8 && HasUpper(p) && HasLower(p) && HasDigit(p)
  }

  /** `validate_password`: one scan for the three character classes. */
  method ValidatePassword(password: string) returns (ok: bool)
    ensures ok <==> StrongPassword(password)
  {
    if |password| < 8 {
      return false;
    }
    var upper, lower, digit := false, false, false;
    var i := 0;
    while i < |password|
      invariant 0 <= i <= |password|
      invariant upper <==> exists j :: 0 <= j < i && IsUpper(password[j])
      invariant lower <==> exists j :: 0 <= j < i && IsLower(password[j])
      invariant digit <==> exists j :: 0 <= j < i && IsDigit(password[j])
    {
      var c := password[i];
      upper := upper || IsUpper(c);
      lower := lower || IsLower(c);
      digit := digit || IsDigit(c);
      i := i + 1;
    }
    ok := upper && lower && digit;
  }

  // ---------------------------------------------------------------------
  // Phone numbers

  /** `validate_phone`: 10 to 15 digits, whatever else surrounds them. */
  function ValidatePhone(phone: string): (r: bool)
    ensures r ==> |phone| >= 10
    ensures r <==> phone != "" && 10 <= |Digits(phone)| <= 15
  {
    phone != "" && 10 <= |Digits(phone)| <= 15
  }

  /** Display formatting never changes whether a number validates. */
  lemma FormattedPhoneValidity(phone: string)
    ensures ValidatePhone(Formatters.FormatPhoneNumber(phone)) == ValidatePhone(phone)
  {
    if phone == "" {
      assert Digits(Formatters.NotAvailable) == "";
    }
  }

  /** Every number the formatter lays out in a UK form validates. */
  lemma UkFormattedPhoneIsValid(phone: string)
    requires phone != ""
    requires Formatters.IsInternationalUk(Digits(phone)) || Formatters.IsNationalUk(Digits(phone))
    ensures ValidatePhone(Formatters.FormatPhoneNumber(phone))
  {
  }

  // ---------------------------------------------------------------------
  // UK postcodes

  predicate UpperOrDigit(c: char) { IsUpper(c) || IsDigit(c) }

  /** Recogniser for the outward code `[A-Z]{1,2}[0-9][A-Z0-9]?`. */
  predicate OutwardCode(h: string) {
    && |h| >= 2 && IsUpper(h[0])
    && if IsUpper(h[1]) then
         |h| >= 3 && IsDigit(h[2]) && (|h| == 3 || (|h| == 4 && UpperOrDigit(h[3])))
       else
         IsDigit(h[1]) && (|h| == 2 || (|h| == 3 && UpperOrDigit(h[2])))
  }

  /** Recogniser for the postcode pattern: an inward code `[0-9][A-Z]{2}`
      at the end, an optional space before it, an outward code before that. */
  predicate PostcodeBody(u: string) {
    && |u| >= 5 && IsDigit(u[|u| - 3]) && IsUpper(u[|u| - 2]) && IsUpper(u[|u| - 1])
    && var h := u[..|u| - 3];
    if h[|h| - 1] == ' ' then OutwardCode(h[..|h| - 1]) else OutwardCode(h)
  }

  /** One position of the postcode pattern. */
  datatype CharClass = Letter | Digit | LetterOrDigit | Space

  predicate InClass(c: char, k: CharClass) {
    match k
    case Letter => IsUpper(c)
    case Digit => IsDigit(c)
    case LetterOrDigit => UpperOrDigit(c)
    case Space => c == ' '
  }

  predicate Fits(u: string, shape: seq<CharClass>) {
    |u| == |shape| && forall i :: 0 <= i < |u| ==> InClass(u[i], shape[i])
  }

  /** The eight shapes the postcode pattern admits: two or one area
      letters, with or without a trailing district character, with or
      without the space. */
  const PostcodeShapes: seq<seq<CharClass>> := [
    [Letter, Digit, Digit, Letter, Letter],
    [Letter, Digit, Space, Digit, Letter, Letter],
    [Letter, Digit, LetterOrDigit, Digit, Letter, Letter],
    [Letter, Digit, LetterOrDigit, Space, Digit, Letter, Letter],
    [Letter, Letter, Digit, Digit, Letter, Letter],
    [Letter, Letter, Digit, Space, Digit, Letter, Letter],
    [Letter, Letter, Digit, LetterOrDigit, Digit, Letter, Letter],
    [Letter, Letter, Digit, LetterOrDigit, Space, Digit, Letter, Letter]
  ]

  /** The recogniser accepts exactly the strings of one of the shapes. */
  lemma PostcodeBodyIff(u: string)
    ensures PostcodeBody(u) <==> exists k :: 0 <= k < |PostcodeShapes| && Fits(u, PostcodeShapes[k])
  {
    if PostcodeBody(u) {
      var k := PostcodeShapeOf(u);
      assert Fits(u, PostcodeShapes[k]);
    }
    if exists k :: 0 <= k < |PostcodeShapes| && Fits(u, PostcodeShapes[k]) {
      var k :| 0 <= k < |PostcodeShapes| && Fits(u, PostcodeShapes[k]);
      ShapeAccepted(u, k);
    }
  }

  /** The shape an accepted postcode has. */
  lemma PostcodeShapeOf(u: string) returns (k: nat)
    requires PostcodeBody(u)
    ensures k < |PostcodeShapes| && Fits(u, PostcodeShapes[k])
  {
    var h := u[..|u| - 3];
    var spaced := h[|h| - 1] == ' ';
    var o := if spaced then h[..|h| - 1] else h;
    assert forall i :: 0 <= i < |o| ==> u[i] == o[i];
    var outward :=
      if !IsUpper(o[1]) then (if |o| == 2 then 0 else 1)
      else (if |o| == 3 then 2 else 3);
    k := 2 * outward + (if spaced then 1 else 0);
  }

  /** Each shape is accepted. */
  lemma ShapeAccepted(u: string, k: nat)
    requires k < |PostcodeShapes| && Fits(u, PostcodeShapes[k])
    ensures PostcodeBody(u)
  {
    var shape := PostcodeShapes[k];
    assert InClass(u[0], shape[0]) && InClass(u[1], shape[1]) && InClass(u[2], shape[2]);
    var h := u[..|u| - 3];
    assert forall i :: 0 <= i < |h| ==> h[i] == u[i];
    if h[|h| - 1] == ' ' {
      var o := h[..|h| - 1];
      assert forall i :: 0 <= i < |o| ==> o[i] == u[i];
    }
  }

  /** `validate_postcode`: the upper-cased input must match. */
  function ValidatePostcode(postcode: string): (r: bool)
    ensures r <==> postcode != "" && DollarAnchored(ToUpper(postcode), PostcodeBody)
    ensures r ==> 5 <= |postcode| <= 9
  {
    postcode != "" && DollarAnchored(ToUpper(postcode), PostcodeBody)
  }

  /** The postcode check ignores the case it is written in. */
  lemma PostcodeCaseInsensitive(postcode: string)
    ensures ValidatePostcode(ToLower(postcode)) == ValidatePostcode(postcode)
    ensures ValidatePostcode(ToUpper(postcode)) == ValidatePostcode(postcode)
  {
    UpperOfLower(postcode);
    UpperIdempotent(postcode);
  }

  lemma UpperIdempotent(s: string)
    ensures ToUpper(ToUpper(s)) == ToUpper(s)
  {
  }

  // ---------------------------------------------------------------------
  // Numeric ranges (a missing value, `None`, fails every check)

  predicate ValidatePrice(price: Option<real>) { price.Some? && price.value > 0.0 }
  predicate ValidateYield(yieldValue: Option<real>) { yieldValue.Some? && 0.0 <= yieldValue.value <= 100.0 }
  predicate ValidateBmvScore(score: Option<real>) { score.Some? && 0.0 <= score.value <= 100.0 }

  const DefaultMinInvestment: real := 50000.0
  const DefaultMaxInvestment: real := 10000000.0

  predicate ValidateInvestmentAmount(amount: Option<real>, minAmount: real, maxAmount: real) {
    amount.Some? && minAmount <= amount.value <= maxAmount
  }

  /** `validate_file_size`. */
  predicate ValidateFileSize(fileSize: int, maxSize: int) { fileSize <= maxSize }

  /** The range checks are inclusive at both ends, reject a missing value,
      and by default accept investments from 50,000 to 10,000,000. */
  lemma RangeChecksInclusive(x: real, size: int, maxSize: int)
    ensures ValidatePrice(Some(x)) <==> x > 0.0
    ensures ValidateYield(Some(x)) <==> 0.0 <= x <= 100.0
    ensures ValidateBmvScore(Some(x)) <==> 0.0 <= x <= 100.0
    ensures ValidateInvestmentAmount(Some(x), DefaultMinInvestment, DefaultMaxInvestment)
      <==> 50000.0 <= x <= 10000000.0
    ensures ValidateYield(Some(0.0)) && ValidateYield(Some(100.0)) && !ValidateYield(Some(100.5))
    ensures ValidateInvestmentAmount(Some(50000.0), DefaultMinInvestment, DefaultMaxInvestment)
      && ValidateInvestmentAmount(Some(10000000.0), DefaultMinInvestment, DefaultMaxInvestment)
    ensures !ValidatePrice(None) && !ValidateYield(None) && !ValidateBmvScore(None)
      && !ValidateInvestmentAmount(None, DefaultMinInvestment, DefaultMaxInvestment)
    ensures ValidateFileSize(size, maxSize) <==> size <= maxSize
  {
  }

  // ---------------------------------------------------------------------
  // Sanitising

  /** The characters `sanitize_string` deletes. */
  predicate Unsafe(c: char) { c == '<' || c == '>' || c == '"' || c == '\'' }

  /** What the removal leaves of one character. */
  function Kept(c: char): string { if Unsafe(c) then "" else [c] }

  /** `re.sub(r'[<>"\']', '', s)`. */
  function RemoveUnsafe(s: string): (r: string)
    ensures forall i :: 0 <= i < |r| ==> !Unsafe(r[i])
    ensures forall c {:trigger multiset(r)[c]} :: !Unsafe(c) ==> multiset(r)[c] == multiset(s)[c]
    ensures (forall i :: 0 <= i < |s| ==> !Unsafe(s[i])) ==> r == s
  {
    if s == "" then ""
    else
      var r := Kept(s[0]) + RemoveUnsafe(s[1..]);
      assert s == [s[0]] + s[1..];
      r
  }

  /** Removing from `a + b` starts with what is kept of `a`'s first
      character. */
  lemma RemoveUnsafeConsAppend(a: string, b: string)
    requires a != ""
    ensures RemoveUnsafe(a + b) == Kept(a[0]) + RemoveUnsafe(a[1..] + b)
  {
    assert (a + b)[1..] == a[1..] + b;
  }

  /** Removal distributes over concatenation, so it keeps the order of
      the characters it keeps. */
  lemma {:induction false} RemoveUnsafeAppend(a: string, b: string)
    ensures RemoveUnsafe(a + b) == RemoveUnsafe(a) + RemoveUnsafe(b)
  {
    if a == "" {
      assert a + b == b;
    } else {
      var h, x, y := Kept(a[0]), RemoveUnsafe(a[1..]), RemoveUnsafe(b);
      assert RemoveUnsafe(a + b) == h + (x + y) by {
        RemoveUnsafeConsAppend(a, b);
        RemoveUnsafeAppend(a[1..], b);
      }
      assert RemoveUnsafe(a) == h + x;
      assert h + (x + y) == (h + x) + y;
    }
  }

  /** `sanitize_string`. */
  function SanitizeString(value: string): (r: string)
    ensures value == "" ==> r == ""
    ensures forall i :: 0 <= i < |r| ==> !Unsafe(r[i])
    ensures Stripped(r)
    ensures exists i :: Trimmed(r, RemoveUnsafe(value), i)
  {
    var cleaned := RemoveUnsafe(value);
    var r := Strip(cleaned);
    SafeInfix(r, cleaned);
    if value == "" then "" else r
  }

  /** A piece of text free of unsafe characters is free of them anywhere. */
  lemma SafeInfix(r: string, s: string)
    requires (forall i :: 0 <= i < |s| ==> !Unsafe(s[i])) && exists i :: InfixAt(r, s, i)
    ensures forall i :: 0 <= i < |r| ==> !Unsafe(r[i])
  {
    var k :| InfixAt(r, s, k);
    assert forall j :: 0 <= j < |r| ==> r[j] == s[k + j];
  }

  /** Sanitising sanitised text changes nothing. */
  lemma SanitizeIdempotent(value: string)
    ensures SanitizeString(SanitizeString(value)) == SanitizeString(value)
  {
    var r := SanitizeString(value);
    if r != "" {
      assert RemoveUnsafe(r) == r;
      StripFixed(r);
    }
  }

  // ---------------------------------------------------------------------
  // File extensions

  /** The lower-cased text after the last `.`, or "" without one. */
  function Extension(filename: string): (r: string)
    ensures '.' !in r
    ensures '.' !in filename ==> r == ""
    ensures '.' in filename ==>
      |r| < |filename| && filename[|filename| - |r| - 1] == '.'
      && r == ToLower(filename[|filename| - |r|..])
  {
    if '.' in filename then
      var k := LastIndex(filename, '.');
      assert forall i :: k + 1 <= i < |filename| ==> filename[i] == filename[k + 1..][i - k - 1];
      ToLower(filename[k + 1..])
    else ""
  }

  /** `validate_file_extension`. */
  function ValidateFileExtension(filename: string, allowed: set<string>): (r: bool)
    ensures r ==> filename != ""
    ensures '.' !in filename ==> (r <==> filename != "" && "" in allowed)
    ensures '.' in filename ==>
      (r <==> exists k :: 0 <= k < |filename| && filename[k] == '.' && '.' !in filename[k + 1..]
                         && ToLower(filename[k + 1..]) in allowed)
    ensures r ==> forall e :: e in allowed && '.' in e ==> Extension(filename) != e
  {
    LastDotSuffix(filename);
    filename != "" && Extension(filename) in allowed
  }

  /** A dot with no dot after it starts the extension. */
  lemma LastDotAt(filename: string, j: int)
    requires 0 <= j < |filename| && filename[j] == '.' && '.' !in filename[j + 1..]
    ensures Extension(filename) == ToLower(filename[j + 1..])
  {
    assert '.' in filename;
    LastIndexUnique(filename, '.', j);
  }

  /** Every dot with no dot after it is the last one, so it starts the
      extension. */
  lemma LastDotSuffix(filename: string)
    ensures forall j :: 0 <= j < |filename| && filename[j] == '.' && '.' !in filename[j + 1..] ==>
      Extension(filename) == ToLower(filename[j + 1..])
    ensures '.' in filename ==> exists j :: 0 <= j < |filename| && filename[j] == '.' && '.' !in filename[j + 1..]
  {
    forall j | 0 <= j < |filename| && filename[j] == '.' && '.' !in filename[j + 1..]
      ensures Extension(filename) == ToLower(filename[j + 1..])
    {
      LastDotAt(filename, j);
    }
    if '.' in filename {
      var k := LastIndex(filename, '.');
      assert filename[k] == '.' && '.' !in filename[k + 1..];
    }
  }

  /** The extension check ignores the case the name is written in. */
  lemma ExtensionCaseInsensitive(filename: string)
    ensures Extension(ToUpper(filename)) == Extension(filename)
  {
    var u := ToUpper(filename);
    if '.' in filename {
      var k := LastIndex(filename, '.');
      var tail := filename[k + 1..];
      assert u[k + 1..] == ToUpper(tail);
      NoDotUnderUpper(tail);
      LastDotAt(u, k);
      LastDotAt(filename, k);
      LowerOfUpper(tail);
    } else {
      NoDotUnderUpper(filename);
    }
  }

  /** Upper-casing adds no `.`. */
  lemma NoDotUnderUpper(s: string)
    requires '.' !in s
    ensures '.' !in ToUpper(s)
  {
  }

  /** The last occurrence is the only one with none after it. */
  lemma LastIndexUnique(s: string, c: char, k: int)
    requires 0 <= k < |s| && s[k] == c && c !in s[k + 1..]
    ensures LastIndex(s, c) == k
  {
  }

  // ---------------------------------------------------------------------
  // Vocabularies

  const PropertyTypes: set<string> := {"residential", "commercial", "mixed-use", "mixed_use", "student_housing"}
  const Strategies: set<string> := {"buy_to_let", "flip", "development", "commercial_let"}
  const Languages: set<string> := {"en", "ar"}
  const UserTypes: set<string> := {"investor", "admin"}
  const Statuses: set<string> := {"pending", "active", "inactive", "verified", "rejected", "draft", "published", "archived"}

  /** `validate_property_type`: compared lower-cased. */
  predicate ValidatePropertyType(propertyType: string) { ToLower(propertyType) in PropertyTypes }
  /** `validate_investment_strategy`: compared lower-cased. */
  predicate ValidateStrategy(strategy: string) { ToLower(strategy) in Strategies }
  /** `validate_language`: compared as written. */
  predicate ValidateLanguage(language: string) { language in Languages }
  /** `validate_user_type`: compared as written. */
  predicate ValidateUserType(userType: string) { userType in UserTypes }
  /** `validate_status`: compared as written. */
  predicate ValidateStatus(status: string) { status in Statuses }

  /** Property types and strategies are accepted in any case; languages
      and user types only as written. */
  lemma VocabularyCase(s: string)
    ensures ValidatePropertyType(ToUpper(s)) == ValidatePropertyType(s)
    ensures ValidateStrategy(ToUpper(s)) == ValidateStrategy(s)
    ensures ValidatePropertyType("Mixed-Use") && ValidateStrategy("BUY_TO_LET")
    ensures !ValidateLanguage("EN") && !ValidateUserType("Admin")
  {
    LowerOfUpper(s);
    assert ToLower("Mixed-Use") == "mixed-use";
    assert ToLower("BUY_TO_LET") == "buy_to_let";
  }

  /** The backend accepts exactly the statuses the frontend has a badge for. */
  lemma StatusVocabulariesAgree(status: string)
    ensures ValidateStatus(status) <==> status in Formatters.KnownStatuses
    ensures ValidateStatus(status) <==> Formatters.GetStatusConfig(status).title != status
  {
  }
}
